=== FILE: README.md ===
# DynamoDB CSV importer: a Dafny model of its core

The importer reads a CSV file and turns each row into a DynamoDB item. A JSON
schema maps each item attribute to a column and a type tag. Nested objects
become nested maps. The items are then written to a table in batches. A
progress tracker records counts and derived statistics for a dashboard.

This project models the pure core of that pipeline and proves properties of
it:

- **Coercion** (`coercion.dfy`). `type_converter` turns the text of one cell
  and a type tag into a typed value. It can also return `None`, which leaves
  the attribute out, or raise, which fails the whole row.
- **Transformation** (`transform.dfy`). This covers several parts:
  - `build_nested_structure` walks the schema mapping.
  - Each leaf is resolved against the row's headers: an exact match, then the
    byte-order-mark variant, then a match that ignores surrounding white
    space and the case of ASCII letters.
  - `transform_row` picks either the mapping or the fixed default layout.
  - `read_csv_data` normalises each row so that a header beginning with a
    byte-order mark can also be found without it.
- **Batching and accounting** (`batching.dfy`). `write_to_dynamo` transforms
  the rows and cuts the non-empty items into batches of `batch_size`. It
  sends every batch through `process_batch` and adds up the outcomes in
  submission order. Those sums are the success and failure totals and the
  tracker updates. The exit code of `main` reads the totals.
- **Progress tracking** (`progress.dfy`). This covers:
  - the tracker's life cycle and counters;
  - its statistics: percentage, rounded elapsed time, throughput and
    estimated completion;
  - the snapshot it saves;
  - `count_csv_rows`.
- **Validation** (`validation.dfy`). There are two checks:
  - the importer's `validate_schema(config)`, which checks the shape of the
    schema;
  - the standalone validator, which transforms the first row of a file and
    looks for the key attributes.

Supporting modules:

- `base.dfy`: `Option`, `Result` and the exceptions the model keeps.
- `text.dfy`: Python string operations (`strip`, `lower`, `split`, `join`,
  `in`).
- `dicts.dfy`: Python dictionaries, kept as insertion-ordered key/value
  sequences.
- `values.dfy`: decimals, JSON and item values.

The table, the clock, the job-id generator and the library parsers (`Decimal`,
`base64.b64decode`, `json.loads`) are parameters. What they do is therefore
arbitrary in every proof.

Where the code and the project's own description disagree, the model follows
the code:

- A `List` piece that converts to `None` is kept in the list, not dropped
  (`Coercion.ConvertPieces`).
- A number that does not parse raises `decimal.InvalidOperation`. This is not
  one of the exceptions `type_converter` catches, so the whole row fails. The
  attribute is not simply omitted (`Coercion.Convert`). In the documented
  end-to-end example, the record with an empty `id` and the age `x` therefore
  fails because of the number, not because its key is missing
  (`Transform.ExampleBadRow`). The import never checks the hash key itself.
- A list subtype written in a schema leaf (`column:L:N`) is ignored. Only the
  text between the first and second colon is used as the tag, so the pieces
  are converted as strings (`Transform.ListSubtypeDropped`).
- The tracker has no terminal-state guard. `complete`, `fail` and `start` can
  follow each other in any order (`Progress.NoTerminalGuard`).

## Model

| member | source | states |
|---|---|---|
| Coercion.ParseTag | dynamodb_csv_importer.py:242-262 | `S`, `N`, `BOOL`, `B`, `SS`, `NS` and `NULL` are read as their own tags, and only those exact names are. A tag is a list exactly when its text starts with `L`, and a map exactly when it starts with `M`. A list tag without a colon has subtype `S`. Only unrecognised names fall to the string default. |
| Coercion.ListTagSubtype | dynamodb_csv_importer.py:251-252 | A list tag `L...:sub` or `L...:sub:rest` converts its pieces with the tag `sub`, whatever follows a second colon. |
| Coercion.Pieces | dynamodb_csv_importer.py:253-254 | Every list piece is non-empty, free of commas and stripped at both ends. Every comma-separated part that is non-empty once stripped is among the pieces. |
| Coercion.KeepNonEmptyAppend | dynamodb_csv_importer.py:254 | Dropping empty pieces keeps the order of the others: filtering a concatenation filters each part in turn. |
| Coercion.PiecesAreStrippedParts | dynamodb_csv_importer.py:253-254 | Every piece is the stripped form of some comma-separated part, so the pieces hold nothing the text does not. |
| Coercion.PiecesOfPart | dynamodb_csv_importer.py:253-254 | A text without commas has one piece, its stripped form, or none when that is empty. With `PiecesAppend` this fixes the pieces of every text. |
| Coercion.PiecesAppend | dynamodb_csv_importer.py:253-254 | The pieces of two texts joined by a comma are the pieces of the first followed by those of the second. |
| Coercion.Convert | dynamodb_csv_importer.py:234-268 | Empty text gives `None`, except `NULL`, which gives `True`. `N` gives the parsed number and raises exactly when the text does not parse. `BOOL` is true exactly for `true`, `yes`, `1` and `y` after lower-casing. `B` and `M` give the decoded value, and `None` when decoding fails (or the JSON is `null`). Non-empty text with `S`, `NULL` or an unknown tag is kept as a string. Any value conforms to its tag, and only number parsing of non-empty text raises. |
| Coercion.StringSetContents | dynamodb_csv_importer.py:259-260 | A non-empty `SS` cell converts to exactly the set of its pieces. |
| Coercion.ConvertPieces | dynamodb_csv_importer.py:255 | A list keeps one converted entry per piece, in order, including the `None`s. It raises only when some piece's conversion raises. |
| Coercion.ConvertPiecesRaises | dynamodb_csv_importer.py:255 | A list raises exactly when some piece's conversion raises. |
| Coercion.NumberSet | dynamodb_csv_importer.py:261-263 | The pieces are parsed and added to the set in order. The set raises exactly when a piece fails to parse before any signalling NaN. It is `None` exactly when a signalling NaN, which cannot be hashed, comes first. Otherwise it holds exactly the parsed numbers. |
| Coercion.ListRoundTrip | dynamodb_csv_importer.py:252-255 | Clean strings joined with commas convert under `L` back to the same strings, in the same order. |
| Coercion.StringSetRoundTrip | dynamodb_csv_importer.py:260 | Clean strings joined with commas convert under `SS` to exactly the set of those strings. |
| Coercion.NumberSetMembers | dynamodb_csv_importer.py:261-268 | `NS` raises exactly when a piece fails to parse before any signalling NaN. It yields a set exactly when every piece parses to a hashable number, and the set holds exactly the parses of the pieces. |
| Coercion.SignalingNaNDropsNumberSet | dynamodb_csv_importer.py:261-268 | A number followed by a signalling NaN (`1,sNaN`) leaves the attribute out: the `TypeError` from hashing is caught. |
| Coercion.PiecesOfJoin | dynamodb_csv_importer.py:253-254 | Splitting and stripping undoes joining clean pieces with commas. |
| Text.Strip | dynamodb_csv_importer.py:253 | `strip` removes exactly the leading and trailing white space: the result is an infix of the text with only white space around it, and it neither starts nor ends with white space. |
| Text.SplitAround | dynamodb_csv_importer.py:253 | Splitting two texts joined by the separator gives the pieces of the first followed by the pieces of the second. |
| Text.SplitJoin | dynamodb_csv_importer.py:283 | `split` undoes `join` for pieces without the separator. |
| Text.JoinSplit | dynamodb_csv_importer.py:283 | `join` undoes `split`. |
| Transform.LeafColumn | dynamodb_csv_importer.py:283 | The column of a leaf is the text before its first colon, or the whole leaf when it has no colon. |
| Transform.LeafTag | dynamodb_csv_importer.py:283-284 | The tag of a leaf is `S` without a colon. Otherwise it is read from the text between the first colon and the next one. |
| Transform.LeafSpecParts | dynamodb_csv_importer.py:283-284 | A leaf `column:tag:...` names the column before the first colon and the tag between the first and second colon. |
| Transform.ListSubtypeDropped | dynamodb_csv_importer.py:283-284 | A leaf `column:L:sub` reads as a list of strings, whatever `sub` says. |
| Transform.FirstNormalizedMatch | dynamodb_csv_importer.py:305-311 | Finds the position of a header whose stripped, lower-cased form equals the target, with no such header before it. `None` means no header matches. |
| Transform.ConvertCell | dynamodb_csv_importer.py:293-300 | A value other than `None` is the conversion of a cell stored under exactly that header. A missing header gives `None`. |
| Transform.Resolve | dynamodb_csv_importer.py:286-310 | An exact header match decides the value, whatever it converts to. Any other value comes from a header that is a candidate for the column (byte-order-mark variant or normalised match). Without candidates the value is `None`. |
| Transform.ResolveToggled | dynamodb_csv_importer.py:292-302 | Without an exact header, the other byte-order-mark spelling of the column decides, unless it is absent or converts to `None`. |
| Transform.ResolveNormalized | dynamodb_csv_importer.py:304-311 | When neither spelling gives a value, the first header that equals the column after normalisation decides. Without such a header the value is `None`. |
| Transform.ResolveFindsBomHeader | dynamodb_csv_importer.py:192-197 | A column that the file spells with a leading byte-order mark resolves under its clean name, to that cell's conversion. |
| Transform.Contribution | dynamodb_csv_importer.py:276-284 | An object entry yields the nested map built from it, or raises as building it does. A `{"type": "M"}` entry is built from its "fields" member and raises without one. Any other object is built from itself. A string leaf yields its resolved value. Any other leaf raises. |
| Transform.BuildNested | dynamodb_csv_importer.py:271-276 | A mapping that is not an object raises. |
| Transform.BuildNestedSpec | dynamodb_csv_importer.py:271-318 | For an object mapping with distinct names, the item is built exactly when every entry's contribution succeeds. Its keys are mapping names. A name is present exactly when its contribution is not `None`, and then holds that contribution. |
| Transform.BuildMembersFails | dynamodb_csv_importer.py:275-318 | From any entry on, the loop succeeds exactly when every remaining contribution succeeds. |
| Transform.BuildMembersKeys | dynamodb_csv_importer.py:275-318 | The loop only adds remaining mapping names. Earlier keys that no remaining entry names are kept. |
| Transform.BuildMembersEntries | dynamodb_csv_importer.py:275-318 | Each remaining name is present exactly when its contribution is not `None`, and then holds it. |
| Transform.ObjectEntryPresent | dynamodb_csv_importer.py:277-281 | An object entry always yields its name, holding a nested map. |
| Transform.LeafEntryPresence | dynamodb_csv_importer.py:282-315 | A string leaf's name is present exactly when resolving its column gives a value, and then holds that value. |
| Transform.DefaultLayout | dynamodb_csv_importer.py:324-331 | Without a mapping, the item has exactly the hash field, the range field and `myAttributes`. It holds `column_c` and `column_d` under `myAttributes`, `column_b` under the range field, and `column_a` or the first cell under the hash field. |
| Transform.MappingOf | dynamodb_csv_importer.py:324-335 | A truthy schema that is not an object raises. A mapping is used only when it is truthy. |
| Transform.TransformRow | dynamodb_csv_importer.py:321-336 | Without a truthy mapping the row gets the default layout. Otherwise the row is built from the mapping. |
| Transform.ExampleGoodRow | dynamodb_csv_importer.py:321-336 | The schema `{"id": "id:S", "age": "age:N"}` turns `{id: a1, age: 30}` into the item `{id: "a1", age: 30}`. |
| Transform.ExampleBadRow | dynamodb_csv_importer.py:244-246 | The same schema raises on `{id: "", age: x}` because of the number. |
| Transform.AddNormalized | dynamodb_csv_importer.py:188-197 | Adding one header keeps the row's headers distinct. |
| Transform.NormalizeRow | dynamodb_csv_importer.py:185-199 | A normalised row never holds a header twice. |
| Transform.ReadRows | dynamodb_csv_importer.py:185-199 | Every row of the reader is yielded once, normalised, in file order, for records with one cell per header. |
| Transform.NormalizeRowSpec | dynamodb_csv_importer.py:185-199 | A normalised row has distinct headers. It holds `k` exactly when the raw row holds `k` or the byte-order mark plus `k`, and its value is the value of one of those two. |
| Transform.NormalizePrefixSpec | dynamodb_csv_importer.py:188-197 | The same statement for any prefix of the row's headers. |
| Batching.ProcessBatch | dynamodb_csv_importer.py:217-231 | The batch raises exactly when some put crashes or the writer's flush raises. Otherwise it returns the numbers of stored and rejected puts, which add up to the batch's length. |
| Batching.CountPartition | dynamodb_csv_importer.py:223-229 | Without crashes every put is counted once, as stored or as rejected. |
| Batching.KeptMembers | dynamodb_csv_importer.py:352-357 | An item goes into a batch exactly when some row transformed to it and it is non-empty. |
| Batching.KeptFirst | dynamodb_csv_importer.py:352-357 | The first row's non-empty item leads the batched items. |
| Batching.RowsPartition | dynamodb_csv_importer.py:352-366 | Every row is either batched, counted as failed, or dropped as empty. |
| Batching.ChunksFlatten | dynamodb_csv_importer.py:349-370 | Putting the batches back together gives the batched items, in order. |
| Batching.ChunksShape | dynamodb_csv_importer.py:356-361 | No batch is empty or longer than the batch size, and every batch but the last is full. |
| Batching.ChunksCount | dynamodb_csv_importer.py:349-370 | The number of batches is the item count divided by the batch size, rounded up. |
| Batching.FullBatchesAreChunks | dynamodb_csv_importer.py:356-370 | Full batches followed by a short remainder are exactly the batches of their items. |
| Batching.AddRow | dynamodb_csv_importer.py:353-366 | One row extends the batched items by its non-empty item and the failures by its error, and keeps every closed batch full. |
| Batching.CollectBatches | dynamodb_csv_importer.py:349-370 | The first loop forms exactly the batches of the non-empty items and counts exactly the rows that raised. |
| Batching.SubmitBatches | dynamodb_csv_importer.py:375-396 | The second loop adds up every batch's outcome in submission order and makes one tracker update per batch. |
| Batching.WriteToDynamo | dynamodb_csv_importer.py:339-402 | The returned pair is the row errors plus the batch totals. The tracker calls are `start`, one update per raising row, one per batch, then `complete`. |
| Batching.OwnLengthAccounting | dynamodb_csv_importer.py:388-392 | When a raised batch is charged its own length, successes plus failures plus dropped rows equal the number of rows. |
| Batching.NoRaiseAccounting | dynamodb_csv_importer.py:375-392 | When no batch raises, the charge rule is irrelevant and every row is counted exactly once, unless its item was empty. |
| Batching.FirstBatchChargeOnChunks | dynamodb_csv_importer.py:391 | With a positive batch size, the charge as written equals a batch's own length for every batch but the last, and is never less. |
| Batching.Charge | dynamodb_csv_importer.py:391 | As written, a raising batch is charged the smaller of the batch size and the first batch's length, whichever batch raised. Corrected, it is charged its own length. |
| Batching.ShortLastBatchOvercharged | dynamodb_csv_importer.py:391 | 26 items in batches of 25, whose one-item last batch raises, are charged 25 failures as written and 1 by own length. |
| Batching.NonPositiveBatchSizeUndercharged | dynamodb_csv_importer.py:359-392 | With a batch size of zero or less, a raising one-item batch is charged that size, not 1. The import still exits with 0. |
| Batching.TrackerAgreesWithTotals | dynamodb_csv_importer.py:344-400 | Replaying the tracker calls leaves the tracker completed, with its counters advanced by exactly the returned totals. |
| Batching.TrackerCallOrder | dynamodb_csv_importer.py:344-400 | The tracker calls are `start` first and `complete` last. In between there is one update per raising row and one per batch, and nothing else. |
| Batching.ExitCode | dynamodb_csv_importer.py:551-558 | The exit code is 0 or 1. It is 1 exactly when something failed and nothing succeeded. |
| Batching.EmptyImportExitsZero | dynamodb_csv_importer.py:551-558 | An import of no rows returns (0, 0) and exits with 0. |
| Batching.AllRowsRaiseExitsOne | dynamodb_csv_importer.py:339-402 | When every row raises, every row is counted as failed, nothing succeeds, and the import exits with 1. |
| Progress.NewTracker | progress_tracker.py:32-43 | A new tracker is pending with zero counters and the given total. It starts and was last updated at the clock reading. It uses the given job id or the generated one. It keeps the table name and the file path, and its current file is the path's base name. |
| Progress.Basename | progress_tracker.py:37 | The base name is the longest suffix without a `/`. |
| Progress.Start | progress_tracker.py:50-52 | `start` sets the status to running and changes nothing else. |
| Progress.Update | progress_tracker.py:56-60 | `update` adds exactly its arguments to the counters and stamps the update time. |
| Progress.Complete | progress_tracker.py:63-65 | `complete` sets the status to completed and changes nothing else. |
| Progress.Fail | progress_tracker.py:69-71 | `fail` sets the status to failed and changes nothing else. |
| Progress.UpdatesCombine | progress_tracker.py:56-60 | Two updates equal one update by their sums, in either order. |
| Progress.UpdateMonotone | progress_tracker.py:56-82 | Non-negative updates never decrease the counters or the percentage. |
| Progress.NoTerminalGuard | progress_tracker.py:50-71 | A completed job can still fail or restart, and a failed one can still complete. |
| Progress.Round2 | progress_tracker.py:82-100 | Rounding to two places moves a value by at most half a hundredth and gives a whole number of hundredths. |
| Progress.Round2Monotone | progress_tracker.py:82 | Rounding preserves order. |
| Progress.Percentage | progress_tracker.py:81-84 | The percentage is 0 without a total. With a total it is within half a hundredth of the processed share in percent, capped at 100. It is never above 100, non-negative for non-negative counts and exactly 100 once processed reaches the total. |
| Progress.Completion | progress_tracker.py:88-93 | The estimated time left is the remaining items times the elapsed time per processed item, and it lies in the future while items remain. |
| Progress.Estimate | progress_tracker.py:86-94 | A completion time exists exactly when something but not everything is processed, time has passed, and the time falls within years 1 to 9999. It lies in the future. With zero elapsed time the division raises, and a time beyond those years raises when it is formatted. Otherwise the estimate is unknown. |
| Progress.ItemsPerSecond | progress_tracker.py:100 | Throughput is 0 without elapsed time. Otherwise it is within half a hundredth of the processed count over at least one second. |
| Progress.Save | progress_tracker.py:103-123 | The snapshot copies every tracker field, stamps the cache time and carries a non-empty error message. It raises exactly when the estimate does. |
| Progress.HundredItemScenario | progress_tracker.py:56-101 | After updates of (40, 10) and (60, 0) on a total of 100, at clock readings between 1970 and the year 5000, the snapshots show 40% and then 100% with an unknown estimate. |
| Progress.SaveSucceedsWhenTimeHasPassed | progress_tracker.py:86-101 | Once the clock has moved past the start, saving raises only for a job under way whose estimated completion falls outside years 1 to 9999. A job with nothing or everything processed always saves. |
| Progress.FailRecordsMessage | progress_tracker.py:69-120 | A failed job's snapshot says `failed` and carries the message exactly when it is non-empty. |
| Progress.CountLines | progress_tracker.py:136-138 | The line count is at most the text length, and zero exactly for empty text. |
| Progress.CountRows | progress_tracker.py:133-141 | The row count is the line count minus one, 0 when the file cannot be read, and -1 for an empty file. |
| Progress.CountTerminatedLines | progress_tracker.py:136-138 | Lines each ended by `\n`, `\r\n` or a lone `\r` are counted one each. |
| Progress.CountRowsOfRecords | progress_tracker.py:133-138 | A header line followed by n record lines counts n rows. |
| Validation.Contains | dynamodb_csv_importer.py:414-423 | Membership works on objects (keys), arrays (elements) and strings (substrings), and raises on anything else. |
| Validation.KeyWarning | dynamodb_csv_importer.py:419-423 | An empty key is never looked up. A non-empty key raises on a schema that is not an object. |
| Validation.ValidateConfig | dynamodb_csv_importer.py:405-425 | A falsy schema passes. |
| Validation.ValidateConfigVerdict | dynamodb_csv_importer.py:405-425 | The check answers false exactly when a truthy schema lacks "mapping". It answers true exactly when the schema is falsy, or holds "mapping" and neither key test raises. |
| Validation.KeysOnlyWarn | dynamodb_csv_importer.py:418-425 | Whenever the check answers, it answers the same with the keys removed. |
| Validation.ObjectSchemaVerdict | dynamodb_csv_importer.py:405-425 | An object schema whose mapping supports membership passes exactly when it holds "mapping", whatever the keys. |
| Validation.FalsyMappingPassesToDefaultLayout | dynamodb_csv_importer.py:321-425 | A schema whose "mapping" is empty passes the check, yet rows get the default layout. |
| Validation.SchemaKey | validate_schema.py:49-50 | A key read from the schema is empty when absent or falsy, and is its text when it is a string. |
| Validation.ValidateSample | validate_schema.py:32-83 | A schema that is unreadable or not an object fails. An unreadable or empty file fails. |
| Validation.FirstItemWithKeysPasses | validate_schema.py:53-75 | An object schema with string keys passes every non-empty file whose first row transforms to a non-empty item holding the keys it names. |
| Validation.OnlyFirstRowMatters | validate_schema.py:53-60 | Two files with the same first row get the same verdict. |
| Validation.PassingSampleLeadsFirstBatch | validate_schema.py:59-71 | When validation passes, an import with the same schema and keys puts the first row's item first in its first batch, and that item holds both keys. |
| Validation.NoMappingPassesEveryFile | validate_schema.py:59-75 | A schema without a truthy mapping validates every non-empty file, because the default layout always holds the key attributes. |

## Left out

- Transform.ReadRows: assumes every record has exactly one cell per header,
  so a row maps strings to strings. `csv.DictReader` stores the extra cells
  of an over-long record under the key `None`. The normalisation then calls
  `None.startswith` at dynamodb_csv_importer.py:195, and the `AttributeError`
  ends the generator. That happens at `for row in rows` (line 352), outside
  the per-row `try`, so the whole import stops. In `main`, the sample read at
  line 522 fails first and `main` returns 1. A short record gets `None` for
  its missing cells, which the default layout would store as attribute
  values. The model represents neither case.
- Reading files. This covers opening the CSV with encoding fallback, the
  `csv.DictReader` parsing, and reading the schema file. The CSV reader's
  rows and the parsed schema are inputs. A read that raises is `None` where
  the source catches it.
- The AWS side: `boto3` sessions, table creation and the key-schema lookup in
  `main`. A `Table` value gives the outcome of each put and of each writer
  flush.
- Concurrency. Batches run on a thread pool, but their results are read in
  submission order, so the totals equal the sequential fold the model
  computes, given a positive worker count (see Batching.WriteToDynamo).
- Logging, the progress files on disk, the job listing and cleanup functions
  of `progress_tracker.py`, and the command-line parsing. `monitor_server.py`
  is not part of this model.
- Clock readings and `uuid4` are parameters. The estimated completion is a
  time value, not a formatted date. `save_progress` reads the clock twice: once
  for the elapsed time and the estimate, and once for `_cache_time`.
  Progress.Save merges the two into one reading `now`, so its `cacheTime` is
  the reading behind the statistics.
- Progress.Estimate: `datetime.fromtimestamp` works in local time, and the
  platform's own limits can be narrower. The model uses the UTC bounds of
  years 1 to 9999 and ignores the rounding to microseconds. A time within a
  time-zone offset of either bound may raise in the source but not in the
  model, or the other way round.
- Progress.Percentage, Progress.ItemsPerSecond, Progress.Round2: floats are
  exact rationals, and `round` rounds half to even on the exact value, not on
  its binary approximation.
- Batching.WriteToDynamo: assumes that the tracker's calls do not raise. In
  the source, a `ZeroDivisionError` from `update` with no elapsed time would
  be charged as a failed batch inside the second loop, or escape from the
  first. It also assumes `max_workers > 0`. `--workers` accepts any integer,
  and with 0 or less the pool constructor raises `ValueError` after the first
  loop. By then `start` and the row-error updates have happened, `complete`
  is never called, and `main` returns 1 instead of the totals.
- Coercion.Convert: `NS` sets compare decimals structurally, so `1.0` and
  `1.00` stay distinct. Python's set merges them. Conversely, quiet NaNs are
  one value in the model, so `NaN,NaN` gives a one-member set, while Python's
  NaN decimals never compare equal and its set keeps two members. `BOOL` lower-cases ASCII
  letters only, which is exact for the words it accepts.
- Transform.Resolve: the normalised match lower-cases ASCII letters only.
  Python's `str.lower()` is Unicode-wide, so a header that differs from the
  column only in the case of a non-ASCII letter (`Émail` against `émail`)
  matches in the source but not in the model.
- Validation.ValidateSample: a truthy `hash_key` or `range_key` that is not a
  string is treated as a failed validation. In the source, a number used with
  the default layout can still pass.
- The `count_csv_rows` call in `main` is not modelled. Only `count_csv_rows`
  itself is modelled. That call passes an `encoding` argument the function
  does not take (dynamodb_csv_importer.py:440). The resulting `TypeError` is
  caught at lines 452-454, which set `tracker = None`. So a run through
  `main` never has a tracker, and `write_to_dynamo` skips every tracker call.
  The tracker events that Batching.WriteToDynamo and
  Batching.TrackerAgreesWithTotals describe are those of a caller that does
  pass a tracker.

## Findings

| source | as written | input that shows it | evidently intended | confidence | as-written member | corrected member |
|---|---|---|---|---|---|---|
| dynamodb_csv_importer.py:391 | A batch that raised is charged `min(batch_size, len(batches[0]))` failures. | 26 items, batch size 25, and the one-item second batch raises: 25 failures are charged for 1 item. | Charge the raising batch's own length, so every row is counted once. | not executed | Batching.ShortLastBatchOvercharged | Batching.OwnLengthAccounting |
| dynamodb_csv_importer.py:359-391 | With `batch_size` of zero or less, each item forms its own batch, and a raised batch is charged `min(batch_size, 1)`. | Batch size 0, one item, and its batch raises: 0 failures are reported and the exit code is 0. | A raised batch counts its items as failed. | not executed | Batching.NonPositiveBatchSizeUndercharged | Batching.OwnLengthAccounting |

=== FILE: base.dfy ===
/** Shared vocabulary of the model: optional values, results that carry the
    importer's exceptions as values, and bytes. */
module Base {

  /** A value that may be absent; `None` plays the role of Python's `None`. */
  datatype Option<+T> = None | Some(value: T)

  /** The exceptions of the importer that the model keeps, by cause. */
  datatype Error =
    | InvalidDecimal(text: string)   // decimal.InvalidOperation raised by an `N` or `NS` conversion
    | MappingNotAnObject             // `.items()` called on a schema value that is not an object
    | FieldSpecNotAString            // `.split(':')` called on a schema leaf that is not a string
    | MissingFields                  // a `{"type": "M"}` group without a "fields" member
    | SchemaNotAnObject              // `.get(...)` called on a schema that is not an object
    | MembershipNotSupported         // `'mapping' in schema` on a JSON number or boolean
    | MethodNotSupported             // `.get(...)` on a JSON array or string schema
    | DivisionByZero                 // throughput computed over zero elapsed seconds
    | TimestampOutOfRange            // `datetime.fromtimestamp` given a time outside years 1 to 9999

  /** Either a value or the exception that replaced it. Usable with `:-`. */
  datatype Result<+T> = Ok(value: T) | Err(error: Error) {
    predicate IsFailure() { Err? }

    function PropagateFailure<U>(): Result<U>
      requires Err?
    {
      Err(error)
    }

    function Extract(): T
      requires Ok?
    {
      value
    }
  }

  newtype byte = x: int | 0 <= x < 256
}

=== FILE: batching.dfy ===
/** The import loop of `write_to_dynamo`: rows are transformed, the
    non-empty items are cut into batches, every batch goes through
    `process_batch`, and the outcomes are added up, in submission order, into
    the success and failure totals and the tracker's updates. The exit-code
    rule of `main` reads the totals. */
module Batching {
  import opened Base
  import opened Values
  import opened Transform
  import opened Progress

  /** What one `batch.put_item` does: store the item, fail with a
      `ClientError` (counted), or raise anything else (escapes the batch). */
  datatype PutOutcome = Stored | Rejected | Crashed

  /** The table as the import sees it: the outcome of the `j`-th put of the
      `b`-th batch, and whether closing the `b`-th batch writer raises. */
  datatype Table = Table(put: (nat, nat) -> PutOutcome, flushRaises: nat -> bool)

  /** What `future.result()` gives for one batch: the pair returned by
      `process_batch`, or an exception. */
  datatype BatchResult = Counted(stored: nat, rejected: nat) | Raised

  /** A progress-tracker call made by the import. */
  datatype Event = StartCall | UpdateCall(processed: int, failed: int) | CompleteCall

  /** How a batch that raised is charged: the source charges
      `min(batch_size, len(batches[0]))`; the batch's own length is what the
      accounting needs. */
  datatype ChargePolicy = FirstBatchLength | OwnLength

  /** Occurrences of `o` in `s`. */
  function Count(s: seq<PutOutcome>, o: PutOutcome): (r: nat)
    ensures r <= |s|
    decreases |s|
  {
    if |s| == 0 then 0 else Count(s[..|s| - 1], o) + (if s[|s| - 1] == o then 1 else 0)
  }

  /** The outcomes of the first `n` puts of batch `b`. */
  function Puts(table: Table, b: nat, n: nat): (r: seq<PutOutcome>)
    ensures |r| == n && forall j :: 0 <= j < n ==> r[j] == table.put(b, j)
  {
    seq(n, j requires 0 <= j < n => table.put(b, j))
  }

  /** The result of `process_batch` on batch `b` of `n` items: any put that
      raises something other than a `ClientError`, or a failing flush when the
      writer closes, makes the whole batch raise. */
  function BatchOutcome(table: Table, b: nat, n: nat): BatchResult {
    var outs := Puts(table, b, n);
    if Crashed in outs || table.flushRaises(b) then Raised
    else Counted(Count(outs, Stored), Count(outs, Rejected))
  }

  /** Without crashes every outcome is either stored or rejected. */
  lemma {:induction false} CountPartition(s: seq<PutOutcome>)
    requires Crashed !in s
    ensures Count(s, Stored) + Count(s, Rejected) == |s|
    decreases |s|
  {
    if |s| > 0 {
      assert forall j :: 0 <= j < |s| - 1 ==> s[..|s| - 1][j] == s[j];
      CountPartition(s[..|s| - 1]);
    }
  }

  /** `process_batch(table, items)` for the `b`-th batch. */
  method ProcessBatch(table: Table, b: nat, items: seq<Item>) returns (r: BatchResult)
    ensures r == BatchOutcome(table, b, |items|)
    ensures r.Counted? <==> (forall j :: 0 <= j < |items| ==> table.put(b, j) != Crashed) && !table.flushRaises(b)
    ensures r.Counted? ==> r.stored + r.rejected == |items|
  {
    var successful: nat := 0;
    var failed: nat := 0;
    var j := 0;
    while j < |items|
      invariant 0 <= j <= |items|
      invariant forall i :: 0 <= i < j ==> table.put(b, i) != Crashed
      invariant successful == Count(Puts(table, b, j), Stored)
      invariant failed == Count(Puts(table, b, j), Rejected)
    {
      assert Puts(table, b, j + 1)[..j] == Puts(table, b, j);
      match table.put(b, j) {
        case Stored => successful := successful + 1;
        case Rejected => failed := failed + 1;
        case Crashed =>
          assert Puts(table, b, |items|)[j] == Crashed;
          return Raised;
      }
      j := j + 1;
    }
    assert Crashed !in Puts(table, b, |items|);
    CountPartition(Puts(table, b, |items|));
    if table.flushRaises(b) {
      return Raised;
    }
    r := Counted(successful, failed);
  }

  /** The transformation of every row, in order. */
  function Transformed(rows: seq<Row>, cfg: Config, p: Parsers): (r: seq<Result<Item>>)
    ensures |r| == |rows| && forall i :: 0 <= i < |rows| ==> r[i] == TransformRow(rows[i], cfg, p)
  {
    seq(|rows|, i requires 0 <= i < |rows| => TransformRow(rows[i], cfg, p))
  }

  /** The items that go into batches: the non-empty ones, in row order. */
  function Kept(rs: seq<Result<Item>>): seq<Item>
    decreases |rs|
  {
    if |rs| == 0 then []
    else
      var last := rs[|rs| - 1];
      Kept(rs[..|rs| - 1]) + (if last.Ok? && last.value != map[] then [last.value] else [])
  }

  /** An item is batched exactly when some row transformed to it and it is
      not empty. */
  lemma {:induction false} KeptMembers(rs: seq<Result<Item>>, x: Item)
    ensures x in Kept(rs) <==> exists i :: 0 <= i < |rs| && rs[i] == Ok(x) && x != map[]
    decreases |rs|
  {
    if |rs| > 0 {
      var front := rs[..|rs| - 1];
      KeptMembers(front, x);
      assert forall i :: 0 <= i < |rs| - 1 ==> front[i] == rs[i];
      if x in Kept(rs) && x !in Kept(front) {
        assert rs[|rs| - 1] == Ok(x);
      }
    }
  }

  /** Rows whose transformation raised. */
  function RowErrors(rs: seq<Result<Item>>): (r: nat)
    ensures r <= |rs|
    decreases |rs|
  {
    if |rs| == 0 then 0 else RowErrors(rs[..|rs| - 1]) + (if rs[|rs| - 1].Err? then 1 else 0)
  }

  /** Rows that transformed to an empty item: dropped without being
      counted. */
  function Dropped(rs: seq<Result<Item>>): (r: nat)
    ensures r <= |rs|
    decreases |rs|
  {
    if |rs| == 0 then 0 else Dropped(rs[..|rs| - 1]) + (if rs[|rs| - 1] == Ok(map[]) then 1 else 0)
  }

  /** A first row with a non-empty item leads the kept items. */
  lemma {:induction false} KeptFirst(rs: seq<Result<Item>>)
    requires |rs| > 0 && rs[0].Ok? && rs[0].value != map[]
    ensures |Kept(rs)| > 0 && Kept(rs)[0] == rs[0].value
    decreases |rs|
  {
    if |rs| > 1 {
      var front := rs[..|rs| - 1];
      assert front[0] == rs[0];
      KeptFirst(front);
    }
  }

  /** Every row is kept, counted as failed, or dropped. */
  lemma {:induction false} RowsPartition(rs: seq<Result<Item>>)
    ensures |Kept(rs)| + RowErrors(rs) + Dropped(rs) == |rs|
    decreases |rs|
  {
    if |rs| > 0 {
      RowsPartition(rs[..|rs| - 1]);
    }
  }

  /** The batch size the loop effectively uses: a non-positive
      `batch_size` closes a batch after every item. */
  function EffectiveSize(batchSize: int): (k: nat)
    ensures k >= 1
    ensures batchSize >= 1 ==> k == batchSize
  {
    if batchSize >= 1 then batchSize else 1
  }

  /** Consecutive runs of `k` items, the last one possibly shorter. */
  function Chunks(xs: seq<Item>, k: nat): seq<seq<Item>>
    requires k >= 1
    decreases |xs|
  {
    if |xs| == 0 then []
    else if |xs| <= k then [xs]
    else [xs[..k]] + Chunks(xs[k..], k)
  }

  function Flatten(bs: seq<seq<Item>>): seq<Item>
    decreases |bs|
  {
    if |bs| == 0 then [] else bs[0] + Flatten(bs[1..])
  }

  lemma {:induction false} FlattenAppend(bs: seq<seq<Item>>, b: seq<Item>)
    ensures Flatten(bs + [b]) == Flatten(bs) + b
    decreases |bs|
  {
    if |bs| == 0 {
      assert [b][1..] == [];
    } else {
      assert (bs + [b])[1..] == bs[1..] + [b];
      FlattenAppend(bs[1..], b);
    }
  }

  /** The batches put back together give the items, in order. */
  lemma {:induction false} ChunksFlatten(xs: seq<Item>, k: nat)
    requires k >= 1
    ensures Flatten(Chunks(xs, k)) == xs
    decreases |xs|
  {
    if |xs| > k {
      ChunksFlatten(xs[k..], k);
      assert ([xs[..k]] + Chunks(xs[k..], k))[1..] == Chunks(xs[k..], k);
      assert xs[..k] + xs[k..] == xs;
    } else if |xs| > 0 {
      assert [xs][1..] == [];
    }
  }

  /** No batch is empty or longer than `k`, and every batch but the last
      is full. */
  predicate Shaped(cs: seq<seq<Item>>, k: nat) {
    && (forall j :: 0 <= j < |cs| ==> 0 < |cs[j]| <= k)
    && (forall j :: 0 <= j < |cs| - 1 ==> |cs[j]| == k)
  }

  lemma {:induction false} ChunksShape(xs: seq<Item>, k: nat)
    requires k >= 1
    ensures Shaped(Chunks(xs, k), k)
    decreases |xs|
  {
    if |xs| > k {
      ChunksShape(xs[k..], k);
      var rest := Chunks(xs[k..], k);
      var cs := Chunks(xs, k);
      assert Shaped(rest, k);
      assert cs == [xs[..k]] + rest;
      forall j | 0 <= j < |cs| ensures 0 < |cs[j]| <= k && (j < |cs| - 1 ==> |cs[j]| == k) {
        if j > 0 {
          assert cs[j] == rest[j - 1];
        }
      }
    }
  }

  /** The first batch starts with the first item. */
  lemma ChunksFirst(xs: seq<Item>, k: nat)
    requires k >= 1 && |xs| > 0
    ensures |Chunks(xs, k)| > 0 && |Chunks(xs, k)[0]| > 0 && Chunks(xs, k)[0][0] == xs[0]
  {
  }

  /** The number of batches is the item count divided by `k`, rounded
      up. */
  lemma {:induction false} ChunksCount(xs: seq<Item>, k: nat)
    requires k >= 1
    ensures |Chunks(xs, k)| == (|xs| + k - 1) / k
    decreases |xs|
  {
    if |xs| > k {
      ChunksCount(xs[k..], k);
      DivStep(|xs| - k, k);
    } else if |xs| > 0 {
      DivOne(|xs|, k);
    }
  }

  lemma DivStep(n: nat, k: nat)
    requires k >= 1
    ensures (n + k + k - 1) / k == (n + k - 1) / k + 1
  {
    var m := n + k - 1;
    var q := m / k;
    assert m == q * k + m % k;
    assert m + k == (q + 1) * k + m % k;
    DivUnique(m + k, k, q + 1, m % k);
  }

  lemma DivUnique(x: int, k: int, q: int, r: int)
    requires k >= 1 && 0 <= r < k && x == q * k + r
    ensures x / k == q
  {
    var q', r' := x / k, x % k;
    assert x == q' * k + r';
    assert (q' - q) * k == r - r';
    if q' > q {
      MulAtLeast(q' - q, k);
    } else if q' < q {
      MulAtLeast(q - q', k);
    }
  }

  lemma MulAtLeast(a: int, k: int)
    requires a >= 1 && k >= 1
    ensures a * k >= k
  {
    assert a * k == (a - 1) * k + k;
  }

  lemma DivOne(n: nat, k: nat)
    requires 1 <= n <= k
    ensures (n + k - 1) / k == 1
  {
  }

  /** Full batches followed by a short rest are exactly the chunks of their
      items. */
  lemma {:induction false} FullBatchesAreChunks(bs: seq<seq<Item>>, rest: seq<Item>, k: nat)
    requires k >= 1
    requires forall j :: 0 <= j < |bs| ==> |bs[j]| == k
    requires |rest| < k
    ensures bs + (if rest == [] then [] else [rest]) == Chunks(Flatten(bs) + rest, k)
    decreases |bs|
  {
    if |bs| > 0 {
      var xs := Flatten(bs) + rest;
      FullBatchesAreChunks(bs[1..], rest, k);
      assert xs == bs[0] + (Flatten(bs[1..]) + rest);
      assert xs[..k] == bs[0];
      assert xs[k..] == Flatten(bs[1..]) + rest;
      if |xs| == k {
        assert Flatten(bs[1..]) + rest == [];
        assert |Flatten(bs[1..])| == 0;
        assert bs == [bs[0]];
      } else {
        var tail := if rest == [] then [] else [rest];
        assert Chunks(xs, k) == [bs[0]] + Chunks(xs[k..], k);
        assert bs + tail == [bs[0]] + (bs[1..] + tail);
      }
    } else {
      assert Flatten(bs) + rest == rest;
    }
  }

  /** The failures charged to the `i`-th batch when it raises: as written,
      the smaller of the batch size and the first batch's length, whichever
      batch raised; corrected, the batch's own length. */
  function Charge(policy: ChargePolicy, batchSize: int, batches: seq<seq<Item>>, i: nat): (r: int)
    requires i < |batches|
    ensures policy == FirstBatchLength ==>
      r <= batchSize && r <= |batches[0]| && (r == batchSize || r == |batches[0]|)
    ensures policy == OwnLength ==> r == |batches[i]|
  {
    match policy
    case FirstBatchLength => if batchSize <= |batches[0]| then batchSize else |batches[0]|
    case OwnLength => |batches[i]|
  }

  /** What the `i`-th batch adds to (successful, failed). */
  function BatchStep(table: Table, batches: seq<seq<Item>>, policy: ChargePolicy, batchSize: int, i: nat): (int, int)
    requires i < |batches|
  {
    match BatchOutcome(table, i, |batches[i]|)
    case Counted(s, f) => (s, f)
    case Raised => (0, Charge(policy, batchSize, batches, i))
  }

  /** The totals over the first `n` batches, folded in submission order. */
  function BatchTotals(table: Table, batches: seq<seq<Item>>, policy: ChargePolicy, batchSize: int, n: nat): (int, int)
    requires n <= |batches|
  {
    if n == 0 then (0, 0)
    else
      var before := BatchTotals(table, batches, policy, batchSize, n - 1);
      var step := BatchStep(table, batches, policy, batchSize, n - 1);
      (before.0 + step.0, before.1 + step.1)
  }

  /** The tracker updates for the first `n` batches: one per batch. */
  function BatchEvents(table: Table, batches: seq<seq<Item>>, policy: ChargePolicy, batchSize: int, n: nat): (r: seq<Event>)
    requires n <= |batches|
    ensures |r| == n
  {
    if n == 0 then []
    else
      var step := BatchStep(table, batches, policy, batchSize, n - 1);
      BatchEvents(table, batches, policy, batchSize, n - 1) + [UpdateCall(step.0, step.1)]
  }

  /** One `update(0, 1)` per row that raised. */
  function ErrorEvents(n: nat): (r: seq<Event>)
    ensures |r| == n && forall i :: 0 <= i < n ==> r[i] == UpdateCall(0, 1)
  {
    seq(n, _ => UpdateCall(0, 1))
  }

  /** The batches the import forms from the rows' transformations. */
  function Batches(rs: seq<Result<Item>>, batchSize: int): seq<seq<Item>> {
    Chunks(Kept(rs), EffectiveSize(batchSize))
  }

  /** The (successful, failed) pair `write_to_dynamo` returns. */
  function ImportTotals(rs: seq<Result<Item>>, batchSize: int, table: Table, policy: ChargePolicy): (int, int) {
    var bs := Batches(rs, batchSize);
    var t := BatchTotals(table, bs, policy, batchSize, |bs|);
    (t.0, RowErrors(rs) + t.1)
  }

  /** The tracker calls `write_to_dynamo` makes, in order. */
  function ImportEvents(rs: seq<Result<Item>>, batchSize: int, table: Table, policy: ChargePolicy): seq<Event> {
    var bs := Batches(rs, batchSize);
    [StartCall] + ErrorEvents(RowErrors(rs))
      + BatchEvents(table, bs, policy, batchSize, |bs|) + [CompleteCall]
  }

  /** One more row extends the kept items and the error count by that row
      alone. */
  lemma RowStep(rs: seq<Result<Item>>, i: nat)
    requires i < |rs|
    ensures Kept(rs[..i + 1]) == Kept(rs[..i]) + (if rs[i].Ok? && rs[i].value != map[] then [rs[i].value] else [])
    ensures RowErrors(rs[..i + 1]) == RowErrors(rs[..i]) + (if rs[i].Err? then 1 else 0)
  {
    assert rs[..i + 1][..i] == rs[..i];
  }

  /** One step of the first loop: a row that raised is counted, an empty
      item is dropped, any other item joins the current batch, which is
      closed once it holds `batch_size` items. */
  method AddRow(batches: seq<seq<Item>>, current: seq<Item>, rowErrors: nat, row: Result<Item>, batchSize: int)
    returns (batches': seq<seq<Item>>, current': seq<Item>, rowErrors': nat)
    requires forall j :: 0 <= j < |batches| ==> |batches[j]| == EffectiveSize(batchSize)
    requires |current| < EffectiveSize(batchSize)
    ensures forall j :: 0 <= j < |batches'| ==> |batches'[j]| == EffectiveSize(batchSize)
    ensures |current'| < EffectiveSize(batchSize)
    ensures Flatten(batches') + current' == Flatten(batches) + current + (if row.Ok? && row.value != map[] then [row.value] else [])
    ensures rowErrors' == rowErrors + (if row.Err? then 1 else 0)
  {
    batches', current', rowErrors' := batches, current, rowErrors;
    match row {
      case Err(_) =>
        rowErrors' := rowErrors + 1;
      case Ok(item) =>
        if item != map[] {
          current' := current + [item];
          if |current'| >= batchSize {
            FlattenAppend(batches, current');
            batches' := batches + [current'];
            current' := [];
          }
        }
    }
  }

  /** The first loop of `write_to_dynamo`: every row is transformed; a row
      that raises is counted as failed and reported to the tracker, an empty
      item is dropped, and the other items are appended to the current batch,
      which is closed once it holds `batch_size` items; what is left forms the
      last batch. */
  method CollectBatches(rows: seq<Row>, cfg: Config, p: Parsers) returns (batches: seq<seq<Item>>, rowErrors: nat)
    ensures batches == Batches(Transformed(rows, cfg, p), cfg.batchSize)
    ensures Flatten(batches) == Kept(Transformed(rows, cfg, p))
    ensures rowErrors == RowErrors(Transformed(rows, cfg, p))
  {
    var rs := Transformed(rows, cfg, p);
    var k := EffectiveSize(cfg.batchSize);
    batches, rowErrors := [], 0;
    var current: seq<Item> := [];
    var i := 0;
    while i < |rows|
      invariant 0 <= i <= |rows|
      invariant forall j :: 0 <= j < |batches| ==> |batches[j]| == k
      invariant |current| < k
      invariant Flatten(batches) + current == Kept(rs[..i])
      invariant rowErrors == RowErrors(rs[..i])
    {
      RowStep(rs, i);
      batches, current, rowErrors := AddRow(batches, current, rowErrors, rs[i], cfg.batchSize);
      i := i + 1;
    }
    assert rs[..|rows|] == rs;
    FullBatchesAreChunks(batches, current, k);
    if current != [] {
      FlattenAppend(batches, current);
      batches := batches + [current];
    }
    ChunksFlatten(Kept(rs), k);
  }

  /** The second loop of `write_to_dynamo`: every batch goes through
      `process_batch`; a counted batch adds its pair to the totals, a batch
      that raised adds its charge to the failures, and either way the tracker
      is updated once. */
  method SubmitBatches(table: Table, batches: seq<seq<Item>>, policy: ChargePolicy, batchSize: int)
    returns (successful: int, failed: int, events: seq<Event>)
    ensures (successful, failed) == BatchTotals(table, batches, policy, batchSize, |batches|)
    ensures events == BatchEvents(table, batches, policy, batchSize, |batches|)
  {
    successful, failed, events := 0, 0, [];
    var j := 0;
    while j < |batches|
      invariant 0 <= j <= |batches|
      invariant (successful, failed) == BatchTotals(table, batches, policy, batchSize, j)
      invariant events == BatchEvents(table, batches, policy, batchSize, j)
    {
      var r := ProcessBatch(table, j, batches[j]);
      match r {
        case Counted(s, f) =>
          successful := successful + s;
          failed := failed + f;
          events := events + [UpdateCall(s, f)];
        case Raised =>
          var charge := if batchSize <= |batches[0]| then batchSize else |batches[0]|;
          if policy == OwnLength {
            charge := |batches[j]|;
          }
          failed := failed + charge;
          events := events + [UpdateCall(0, charge)];
      }
      j := j + 1;
    }
  }

  /** `write_to_dynamo(table, rows, config, tracker)`, with the rows as
      `read_csv_data` yields them and the tracker's calls returned as
      events. */
  method WriteToDynamo(rows: seq<Row>, cfg: Config, p: Parsers, table: Table, policy: ChargePolicy)
    returns (successful: int, failed: int, batches: seq<seq<Item>>, events: seq<Event>)
    ensures batches == Batches(Transformed(rows, cfg, p), cfg.batchSize)
    ensures Flatten(batches) == Kept(Transformed(rows, cfg, p))
    ensures (successful, failed) == ImportTotals(Transformed(rows, cfg, p), cfg.batchSize, table, policy)
    ensures events == ImportEvents(Transformed(rows, cfg, p), cfg.batchSize, table, policy)
  {
    var rowErrors;
    batches, rowErrors := CollectBatches(rows, cfg, p);
    var s, f, updates := SubmitBatches(table, batches, policy, cfg.batchSize);
    successful, failed := s, rowErrors + f;
    events := [StartCall] + ErrorEvents(rowErrors) + updates + [CompleteCall];
    ghost var rs := Transformed(rows, cfg, p);
    ImportParts(rs, cfg.batchSize, table, policy, batches, rowErrors, (s, f), updates);
    ghost var totals := ImportTotals(rs, cfg.batchSize, table, policy);
    assert totals.0 == successful && totals.1 == failed;
  }

  /** The import's totals and calls, assembled from the two loops'
      results. */
  lemma ImportParts(rs: seq<Result<Item>>, batchSize: int, table: Table, policy: ChargePolicy,
                    batches: seq<seq<Item>>, rowErrors: nat, totals: (int, int), updates: seq<Event>)
    requires batches == Batches(rs, batchSize)
    requires rowErrors == RowErrors(rs)
    requires totals == BatchTotals(table, batches, policy, batchSize, |batches|)
    requires updates == BatchEvents(table, batches, policy, batchSize, |batches|)
    ensures ImportTotals(rs, batchSize, table, policy) == (totals.0, rowErrors + totals.1)
    ensures ImportEvents(rs, batchSize, table, policy) == [StartCall] + ErrorEvents(rowErrors) + updates + [CompleteCall]
  {
  }

  /** With every raised batch charged its own length, each row is counted
      exactly once, as a success or a failure, unless its item was empty. */
  lemma OwnLengthAccounting(rs: seq<Result<Item>>, batchSize: int, table: Table)
    ensures var t := ImportTotals(rs, batchSize, table, OwnLength);
      t.0 + t.1 + Dropped(rs) == |rs|
  {
    var bs := Batches(rs, batchSize);
    OwnLengthBatchTotals(table, bs, batchSize, |bs|);
    ChunksFlatten(Kept(rs), EffectiveSize(batchSize));
    RowsPartition(rs);
  }

  /** Items in the first `n` batches. */
  function Size(bs: seq<seq<Item>>, n: nat): nat
    requires n <= |bs|
  {
    if n == 0 then 0 else Size(bs, n - 1) + |bs[n - 1]|
  }

  lemma {:induction false} SizeIsFlattenLength(bs: seq<seq<Item>>)
    ensures Size(bs, |bs|) == |Flatten(bs)|
    decreases |bs|
  {
    if |bs| > 0 {
      var init := bs[..|bs| - 1];
      assert bs == init + [bs[|bs| - 1]];
      FlattenAppend(init, bs[|bs| - 1]);
      SizeIsFlattenLength(init);
      SizePrefix(bs, init, |init|);
    }
  }

  lemma {:induction false} SizePrefix(bs: seq<seq<Item>>, init: seq<seq<Item>>, n: nat)
    requires n <= |init| <= |bs| && init == bs[..|init|]
    ensures Size(bs, n) == Size(init, n)
  {
    if n > 0 {
      SizePrefix(bs, init, n - 1);
    }
  }

  /** Each batch contributes its own length when charged by its own
      length. */
  lemma {:induction false} OwnLengthBatchTotals(table: Table, bs: seq<seq<Item>>, batchSize: int, n: nat)
    requires n <= |bs|
    ensures var t := BatchTotals(table, bs, OwnLength, batchSize, n); t.0 + t.1 == Size(bs, n)
    ensures n == |bs| ==> var t := BatchTotals(table, bs, OwnLength, batchSize, n); t.0 + t.1 == |Flatten(bs)|
  {
    if n > 0 {
      OwnLengthBatchTotals(table, bs, batchSize, n - 1);
      var outs := Puts(table, n - 1, |bs[n - 1]|);
      if !(Crashed in outs || table.flushRaises(n - 1)) {
        CountPartition(outs);
      }
    }
    if n == |bs| {
      SizeIsFlattenLength(bs);
    }
  }

  /** When no batch raises, the charge policy is irrelevant and every row is
      counted once, unless its item was empty. */
  lemma NoRaiseAccounting(rs: seq<Result<Item>>, batchSize: int, table: Table, policy: ChargePolicy)
    requires forall b :: 0 <= b < |Batches(rs, batchSize)| ==> BatchOutcome(table, b, |Batches(rs, batchSize)[b]|).Counted?
    ensures ImportTotals(rs, batchSize, table, policy) == ImportTotals(rs, batchSize, table, OwnLength)
    ensures var t := ImportTotals(rs, batchSize, table, policy);
      t.0 + t.1 + Dropped(rs) == |rs|
  {
    var bs := Batches(rs, batchSize);
    PolicyIrrelevant(table, bs, policy, batchSize, |bs|);
    OwnLengthAccounting(rs, batchSize, table);
  }

  lemma {:induction false} PolicyIrrelevant(table: Table, bs: seq<seq<Item>>, policy: ChargePolicy, batchSize: int, n: nat)
    requires n <= |bs|
    requires forall b :: 0 <= b < n ==> BatchOutcome(table, b, |bs[b]|).Counted?
    ensures BatchTotals(table, bs, policy, batchSize, n) == BatchTotals(table, bs, OwnLength, batchSize, n)
  {
    if n > 0 {
      PolicyIrrelevant(table, bs, policy, batchSize, n - 1);
    }
  }

  /** As written, the charge for a raised batch equals its own length for
      every batch but the last, when the batch size is positive; the last
      batch is charged the first batch's length, which may exceed its own. */
  lemma FirstBatchChargeOnChunks(xs: seq<Item>, batchSize: int, i: nat)
    requires batchSize >= 1
    requires i < |Chunks(xs, batchSize)|
    ensures var cs := Chunks(xs, batchSize);
      && (i < |cs| - 1 ==> Charge(FirstBatchLength, batchSize, cs, i) == |cs[i]|)
      && Charge(FirstBatchLength, batchSize, cs, i) >= |cs[i]|
  {
    ChunksShape(xs, batchSize);
  }

  /** The tracker after a sequence of calls, all made at clock reading
      `now`. */
  function Replay(t: Tracker, events: seq<Event>, now: real): Tracker
    decreases |events|
  {
    if |events| == 0 then t
    else
      var before := Replay(t, events[..|events| - 1], now);
      match events[|events| - 1]
      case StartCall => Start(before)
      case UpdateCall(s, f) => Update(before, s, f, now)
      case CompleteCall => Complete(before)
  }

  lemma {:induction false} ReplayAppend(t: Tracker, a: seq<Event>, b: seq<Event>, now: real)
    ensures Replay(t, a + b, now) == Replay(Replay(t, a, now), b, now)
    decreases |b|
  {
    if |b| > 0 {
      assert (a + b)[..|a + b| - 1] == a + b[..|b| - 1];
      ReplayAppend(t, a, b[..|b| - 1], now);
    } else {
      assert a + b == a;
    }
  }

  lemma {:induction false} ReplayErrors(t: Tracker, n: nat, now: real)
    ensures Replay(t, ErrorEvents(n), now).processed == t.processed
    ensures Replay(t, ErrorEvents(n), now).failed == t.failed + n
    ensures Replay(t, ErrorEvents(n), now).status == t.status
  {
    if n > 0 {
      assert ErrorEvents(n)[..n - 1] == ErrorEvents(n - 1);
      ReplayErrors(t, n - 1, now);
    }
  }

  lemma {:induction false} ReplayBatches(t: Tracker, table: Table, bs: seq<seq<Item>>, policy: ChargePolicy, batchSize: int, n: nat, now: real)
    requires n <= |bs|
    ensures var r := Replay(t, BatchEvents(table, bs, policy, batchSize, n), now);
      var totals := BatchTotals(table, bs, policy, batchSize, n);
      r.processed == t.processed + totals.0 && r.failed == t.failed + totals.1 && r.status == t.status
  {
    if n > 0 {
      var es := BatchEvents(table, bs, policy, batchSize, n);
      assert es[..n - 1] == BatchEvents(table, bs, policy, batchSize, n - 1);
      ReplayBatches(t, table, bs, policy, batchSize, n - 1, now);
    }
  }

  /** The tracker ends the import completed, with its counters advanced by
      exactly the totals `write_to_dynamo` returns: it calls `start` first,
      `complete` last, and `update` once per raising row and once per
      batch. */
  lemma TrackerAgreesWithTotals(t: Tracker, rs: seq<Result<Item>>, batchSize: int, table: Table, policy: ChargePolicy, now: real)
    ensures var r := Replay(t, ImportEvents(rs, batchSize, table, policy), now);
      var totals := ImportTotals(rs, batchSize, table, policy);
      && r.processed == t.processed + totals.0
      && r.failed == t.failed + totals.1
      && r.status == Progress.Completed
  {
    var bs := Batches(rs, batchSize);
    var bevs := BatchEvents(table, bs, policy, batchSize, |bs|);
    ReplayImport(t, RowErrors(rs), bevs, now);
    ReplayErrors(Start(t), RowErrors(rs), now);
    ReplayBatches(Replay(Start(t), ErrorEvents(RowErrors(rs)), now), table, bs, policy, batchSize, |bs|, now);
  }

  /** Replaying an import's calls: `start`, the row errors, the batch
      updates, `complete`. */
  lemma ReplayImport(t: Tracker, n: nat, bevs: seq<Event>, now: real)
    ensures Replay(t, [StartCall] + ErrorEvents(n) + bevs + [CompleteCall], now)
      == Complete(Replay(Replay(Start(t), ErrorEvents(n), now), bevs, now))
  {
    var errs := ErrorEvents(n);
    var es := [StartCall] + errs + bevs + [CompleteCall];
    ReplayAppend(t, [StartCall] + errs, bevs, now);
    ReplayAppend(t, [StartCall], errs, now);
    assert Replay(t, [StartCall], now) == Start(t) by {
      assert [StartCall][..0] == [];
    }
    assert es[..|es| - 1] == [StartCall] + errs + bevs;
  }

  /** The import calls `start` first, `complete` last, and `update` in
      between: once per raising row and once per batch. */
  lemma TrackerCallOrder(rs: seq<Result<Item>>, batchSize: int, table: Table, policy: ChargePolicy)
    ensures var es := ImportEvents(rs, batchSize, table, policy);
      && es[0] == StartCall && es[|es| - 1] == CompleteCall
      && |es| == 2 + RowErrors(rs) + |Batches(rs, batchSize)|
      && forall i :: 0 < i < |es| - 1 ==> es[i].UpdateCall?
  {
    var bs := Batches(rs, batchSize);
    var errs := ErrorEvents(RowErrors(rs));
    var bevs := BatchEvents(table, bs, policy, batchSize, |bs|);
    var es := ImportEvents(rs, batchSize, table, policy);
    assert es == [StartCall] + errs + bevs + [CompleteCall];
    forall i | 0 < i < |es| - 1 ensures es[i].UpdateCall? {
      if i <= |errs| {
        assert es[i] == errs[i - 1];
      } else {
        assert es[i] == bevs[i - 1 - |errs|];
        BatchEventsAreUpdates(table, bs, policy, batchSize, |bs|, i - 1 - |errs|);
      }
    }
  }

  lemma {:induction false} BatchEventsAreUpdates(table: Table, bs: seq<seq<Item>>, policy: ChargePolicy, batchSize: int, n: nat, i: nat)
    requires n <= |bs| && i < n
    ensures BatchEvents(table, bs, policy, batchSize, n)[i].UpdateCall?
  {
    if i < n - 1 {
      BatchEventsAreUpdates(table, bs, policy, batchSize, n - 1, i);
    }
  }

  /** The exit code of `main` after an import: 1 only when something failed
      and nothing succeeded. */
  function ExitCode(successful: int, failed: int): (code: int)
    ensures code == 0 || code == 1
    ensures code == 1 <==> failed > 0 && successful == 0
  {
    if failed > 0 && successful == 0 then 1 else 0
  }

  /** An import of no rows succeeds. */
  lemma EmptyImportExitsZero(batchSize: int, table: Table, policy: ChargePolicy)
    ensures ImportTotals([], batchSize, table, policy) == (0, 0)
    ensures ExitCode(ImportTotals([], batchSize, table, policy).0, ImportTotals([], batchSize, table, policy).1) == 0
  {
  }

  /** An import in which every row raises during transformation exits with
      1, and counts every row as failed. */
  lemma AllRowsRaiseExitsOne(rs: seq<Result<Item>>, batchSize: int, table: Table, policy: ChargePolicy)
    requires |rs| > 0
    requires forall i :: 0 <= i < |rs| ==> rs[i].Err?
    ensures ImportTotals(rs, batchSize, table, policy) == (0, |rs|)
    ensures ExitCode(ImportTotals(rs, batchSize, table, policy).0, ImportTotals(rs, batchSize, table, policy).1) == 1
  {
    AllErrors(rs);
    RowsPartition(rs);
    assert Kept(rs) == [];
  }

  lemma {:induction false} AllErrors(rs: seq<Result<Item>>)
    requires forall i :: 0 <= i < |rs| ==> rs[i].Err?
    ensures RowErrors(rs) == |rs|
    decreases |rs|
  {
    if |rs| > 0 {
      AllErrors(rs[..|rs| - 1]);
    }
  }

  lemma {:induction false} CountAll(s: seq<PutOutcome>, o: PutOutcome)
    requires forall j :: 0 <= j < |s| ==> s[j] == o
    ensures Count(s, o) == |s|
    decreases |s|
  {
    if |s| > 0 {
      CountAll(s[..|s| - 1], o);
    }
  }

  /** A table that stores every item but whose writer raises when batch
      `bad` closes. */
  function FlushFailsAt(bad: nat): Table {
    Table((b: nat, j: nat) => Stored, (b: nat) => b == bad)
  }

  /** As written: 26 items in batches of 25 where the second batch, of one
      item, raises are charged 25 failures; charged by its own length it is
      one. */
  lemma ShortLastBatchOvercharged(x: Item)
    ensures var xs := seq(26, _ => x);
      var cs := Chunks(xs, 25);
      && |cs| == 2 && |cs[1]| == 1
      && BatchTotals(FlushFailsAt(1), cs, FirstBatchLength, 25, 2) == (25, 25)
      && BatchTotals(FlushFailsAt(1), cs, OwnLength, 25, 2) == (25, 1)
  {
    var xs := seq(26, _ => x);
    var cs := Chunks(xs, 25);
    assert cs == [xs[..25], xs[25..]] by {
      assert Chunks(xs[25..], 25) == [xs[25..]];
    }
    var table := FlushFailsAt(1);
    var outs := Puts(table, 0, 25);
    CountAll(outs, Stored);
    assert Crashed !in outs;
    assert Count(outs, Rejected) == 0 by {
      CountNone(outs, Rejected);
    }
    assert BatchOutcome(table, 0, 25) == Counted(25, 0);
    assert BatchOutcome(table, 1, 1) == Raised;
    assert |cs[0]| == 25 && |cs[1]| == 1;
    assert BatchTotals(table, cs, FirstBatchLength, 25, 1) == (25, 0);
    assert BatchTotals(table, cs, OwnLength, 25, 1) == (25, 0);
  }

  lemma {:induction false} CountNone(s: seq<PutOutcome>, o: PutOutcome)
    requires o !in s
    ensures Count(s, o) == 0
    decreases |s|
  {
    if |s| > 0 {
      assert forall j :: 0 <= j < |s| - 1 ==> s[..|s| - 1][j] == s[j];
      CountNone(s[..|s| - 1], o);
    }
  }

  /** As written, a batch size of zero charges nothing for a raised batch,
      and a negative one charges a negative number: an import of one item
      whose only batch raises reports no failure, or a negative one, and
      exits with 0. */
  lemma NonPositiveBatchSizeUndercharged(x: Item, batchSize: int)
    requires batchSize <= 0
    ensures var cs := Chunks([x], EffectiveSize(batchSize));
      && cs == [[x]]
      && BatchTotals(FlushFailsAt(0), cs, FirstBatchLength, batchSize, 1) == (0, batchSize)
      && BatchTotals(FlushFailsAt(0), cs, OwnLength, batchSize, 1) == (0, 1)
      && ExitCode(0, batchSize) == 0
  {
  }
}

=== FILE: coercion.dfy ===
/** Field coercion: `type_converter` turns the text of one CSV cell and a
    DynamoDB type tag into a typed value, or into `None`, meaning that the
    attribute is left out of the item. */
module Coercion {
  import opened Base
  import opened Text
  import opened Values

  /** The type tags `type_converter` distinguishes. `L` carries the tag its
      pieces are converted with; `Null` only differs from `Other` on empty
      text. */
  datatype Tag = S | N | Bool | B | Null | L(sub: Tag) | M | SS | NS | Other

  /** Reads a tag the way `type_converter` tests it: exact names for `S`,
      `N`, `BOOL`, `B`, `SS`, `NS` and `NULL`; any text starting with `L` is a
      list whose subtype is the text between its first and second colon
      (`S` when there is no colon); any text starting with `M` is a map. */
  function ParseTag(t: string): (r: Tag)
    ensures r.L? <==> StartsWith(t, 'L')
    ensures r.M? <==> StartsWith(t, 'M')
    ensures r.L? && ':' !in t ==> r.sub == S
    ensures r.Other? ==> t !in {"S", "N", "BOOL", "B", "SS", "NS", "NULL"}
    ensures r == S <==> t == "S"
    ensures r == N <==> t == "N"
    ensures r == Bool <==> t == "BOOL"
    ensures r == B <==> t == "B"
    ensures r == SS <==> t == "SS"
    ensures r == NS <==> t == "NS"
    ensures r == Null <==> t == "NULL"
    decreases |t|
  {
    if t == "S" then S
    else if t == "N" then N
    else if t == "BOOL" then Bool
    else if t == "B" then B
    else if StartsWith(t, 'L') then
      if ':' in t then L(ParseTag(Split(t, ':')[1])) else L(S)
    else if StartsWith(t, 'M') then M
    else if t == "SS" then SS
    else if t == "NS" then NS
    else if t == "NULL" then Null
    else Other
  }

  /** A list tag names its subtype between its first and second colon;
      whatever follows a second colon is ignored. */
  lemma ListTagSubtype(head: string, sub: string, rest: string)
    requires StartsWith(head, 'L') && ':' !in head && ':' !in sub
    ensures ParseTag(head + [':'] + sub) == L(ParseTag(sub))
    ensures ParseTag(head + [':'] + sub + [':'] + rest) == L(ParseTag(sub))
  {
    SplitAfterPiece(head, sub, ':');
    SplitWithoutSeparator(sub, ':');
    assert head + [':'] + sub + [':'] + rest == head + [':'] + (sub + [':'] + rest);
    SplitAfterPiece(head, sub + [':'] + rest, ':');
    SplitAfterPiece(sub, rest, ':');
  }

  /** The texts `BOOL` reads as true, after lower-casing. */
  const TrueWords: set<string> := {"true", "yes", "1", "y"}

  /** `[item.strip() for item in text.split(',')]` without the empty ones:
      the pieces `L`, `SS` and `NS` convert, in order. */
  function Pieces(text: string): (r: seq<string>)
    ensures forall i :: 0 <= i < |r| ==> r[i] != "" && ',' !in r[i]
    ensures forall i :: 0 <= i < |r| ==> !IsSpace(r[i][0]) && !IsSpace(r[i][|r[i]| - 1])
    ensures var parts := Split(text, ',');
      forall i :: 0 <= i < |parts| && Strip(parts[i]) != "" ==> Strip(parts[i]) in r
  {
    var parts := Split(text, ',');
    var stripped := StripAll(parts);
    var r := KeepNonEmpty(stripped);
    forall i | 0 <= i < |r| ensures !IsSpace(r[i][0]) && !IsSpace(r[i][|r[i]| - 1]) && ',' !in r[i] {
      var j :| 0 <= j < |stripped| && stripped[j] == r[i];
      StripKeepsOut(parts[j], ',');
    }
    r
  }

  /** Every piece is the stripped form of some comma-separated part: the
      pieces hold nothing that the text does not. */
  lemma PiecesAreStrippedParts(text: string)
    ensures forall i :: 0 <= i < |Pieces(text)| ==> Pieces(text)[i] in StripAll(Split(text, ','))
  {
    assert Pieces(text) == KeepNonEmpty(StripAll(Split(text, ',')));
  }

  /** A text without commas is one piece, its stripped form, unless that is
      empty. With `PiecesAppend` this fixes the pieces of every text. */
  lemma PiecesOfPart(x: string)
    requires ',' !in x
    ensures Pieces(x) == if Strip(x) == "" then [] else [Strip(x)]
  {
    SplitWithoutSeparator(x, ',');
    assert StripAll([x]) == [Strip(x)];
    assert KeepNonEmpty([Strip(x)]) == if Strip(x) == "" then [] else [Strip(x)];
  }

  function StripAll(ps: seq<string>): (r: seq<string>)
    ensures |r| == |ps|
    ensures forall i :: 0 <= i < |r| ==> r[i] == Strip(ps[i])
  {
    seq(|ps|, i requires 0 <= i < |ps| => Strip(ps[i]))
  }

  function KeepNonEmpty(ps: seq<string>): (r: seq<string>)
    ensures forall i :: 0 <= i < |r| ==> r[i] != "" && r[i] in ps
    ensures forall i :: 0 <= i < |ps| && ps[i] != "" ==> ps[i] in r
  {
    if |ps| == 0 then []
    else if ps[0] == "" then KeepNonEmpty(ps[1..])
    else
      var rest := KeepNonEmpty(ps[1..]);
      assert forall i :: 1 <= i < |ps| ==> ps[i] == ps[1..][i - 1];
      [ps[0]] + rest
  }

  /** Filtering keeps the order: the kept pieces of a concatenation are the
      kept pieces of each part, one after the other. */
  lemma {:induction false} KeepNonEmptyAppend(a: seq<string>, b: seq<string>)
    ensures KeepNonEmpty(a + b) == KeepNonEmpty(a) + KeepNonEmpty(b)
    decreases |a|
  {
    if |a| > 0 {
      assert (a + b)[1..] == a[1..] + b;
      KeepNonEmptyAppend(a[1..], b);
    } else {
      assert a + b == b;
    }
  }

  lemma StripAllAppend(a: seq<string>, b: seq<string>)
    ensures StripAll(a + b) == StripAll(a) + StripAll(b)
  {
    var l := StripAll(a + b);
    var r := StripAll(a) + StripAll(b);
    forall i | 0 <= i < |l| ensures l[i] == r[i] {
      if i < |a| {
        assert (a + b)[i] == a[i];
      } else {
        assert (a + b)[i] == b[i - |a|];
      }
    }
  }

  /** The pieces of two texts joined by a comma are the pieces of the first
      followed by the pieces of the second: order is kept and nothing
      crosses the comma. */
  lemma PiecesAppend(a: string, b: string)
    ensures Pieces(a + [','] + b) == Pieces(a) + Pieces(b)
  {
    SplitAround(a, b, ',');
    StripAllAppend(Split(a, ','), Split(b, ','));
    KeepNonEmptyAppend(StripAll(Split(a, ',')), StripAll(Split(b, ',')));
  }

  /** What a converted value looks like for each tag. */
  predicate Conforms(v: Value, tag: Tag)
    decreases tag
  {
    match tag
    case S => v.VStr?
    case Other => v.VStr?
    case Null => v.VStr? || v == VBool(true)
    case N => v.VNum?
    case Bool => v.VBool?
    case B => v.VBin?
    case L(sub) =>
      v.VList? && forall i :: 0 <= i < |v.elems| ==> v.elems[i].None? || Conforms(v.elems[i].value, sub)
    case M => v.VJson? && v.j != JNull
    case SS => v.VStrSet?
    case NS => v.VNumSet?
  }

  /** Whether a conversion with this tag parses numbers, the only step that
      can raise past `type_converter`. */
  predicate ParsesNumbers(tag: Tag)
    decreases tag
  {
    match tag
    case N => true
    case NS => true
    case L(sub) => ParsesNumbers(sub)
    case _ => false
  }

  /** `type_converter(text, tag)`. `Ok(None)` is the `None` that leaves the
      attribute out; `Err` is a `decimal.InvalidOperation`, which is not a
      `ValueError` and so escapes the converter's own handler. Base64 and JSON
      failures are `ValueError`s and become `None`, and so does JSON `null`. */
  function Convert(text: string, tag: Tag, p: Parsers): (r: Result<Option<Value>>)
    ensures r.Ok? && r.value.Some? ==> Conforms(r.value.value, tag)
    ensures r.Err? ==> ParsesNumbers(tag) && text != ""
    ensures r == Ok(None) ==> (text == "" && tag != Null) || tag == B || tag == M || tag == NS
    ensures text == "" ==> r == Ok(if tag == Null then Some(VBool(true)) else None)
    ensures text != "" && (tag == S || tag == Other || tag == Null) ==> r == Ok(Some(VStr(text)))
    ensures text != "" && tag == N ==>
      && (r.Err? <==> p.decimal(text).None?)
      && (r.Ok? ==> r.value == Some(VNum(p.decimal(text).value)))
    ensures text != "" && tag == Bool ==> r == Ok(Some(VBool(Lower(text) in TrueWords)))
    ensures text != "" && tag == B ==>
      && (r == Ok(None) <==> p.base64(text).None?)
      && (r != Ok(None) ==> r == Ok(Some(VBin(p.base64(text).value))))
    ensures text != "" && tag == M ==>
      && (r == Ok(None) <==> p.json(text).None? || p.json(text) == Some(JNull))
      && (r != Ok(None) ==> r == Ok(Some(VJson(p.json(text).value))))
    decreases tag, 0
  {
    if text == "" then Ok(if tag == Null then Some(VBool(true)) else None)
    else match tag
      case S => Ok(Some(VStr(text)))
      case N =>
        (match p.decimal(text)
         case Some(d) => Ok(Some(VNum(d)))
         case None => Err(InvalidDecimal(text)))
      case Bool => Ok(Some(VBool(Lower(text) in TrueWords)))
      case B =>
        (match p.base64(text)
         case Some(bytes) => Ok(Some(VBin(bytes)))
         case None => Ok(None))
      case L(sub) =>
        var elems :- ConvertPieces(Pieces(text), sub, p);
        Ok(Some(VList(elems)))
      case M =>
        (match p.json(text)
         case Some(j) => if j == JNull then Ok(None) else Ok(Some(VJson(j)))
         case None => Ok(None))
      case SS => Ok(Some(VStrSet(set x | x in Pieces(text))))
      case NS =>
        var nums :- NumberSet(Pieces(text), p);
        Ok(if nums.Some? then Some(VNumSet(nums.value)) else None)
      case Null => Ok(Some(VStr(text)))
      case Other => Ok(Some(VStr(text)))
  }

  /** `[type_converter(item, sub) for item in pieces]`: every piece converted
      in order, the `None`s kept; the first escaping error aborts. */
  function ConvertPieces(pieces: seq<string>, sub: Tag, p: Parsers): (r: Result<seq<Option<Value>>>)
    ensures r.Ok? ==> |r.value| == |pieces|
    ensures r.Ok? ==> forall i :: 0 <= i < |pieces| ==> Convert(pieces[i], sub, p) == Ok(r.value[i])
    ensures r.Err? ==> exists i :: 0 <= i < |pieces| && Convert(pieces[i], sub, p).Err?
    decreases sub, 1, |pieces|
  {
    if |pieces| == 0 then Ok([])
    else
      var head :- Convert(pieces[0], sub, p);
      var tail :- ConvertPieces(pieces[1..], sub, p);
      assert forall i :: 1 <= i < |pieces| ==> pieces[i] == pieces[1..][i - 1];
      Ok([head] + tail)
  }

  /** The list raises exactly when some piece's conversion raises. */
  lemma {:induction false} ConvertPiecesRaises(pieces: seq<string>, sub: Tag, p: Parsers)
    ensures ConvertPieces(pieces, sub, p).Err? <==> exists i :: 0 <= i < |pieces| && Convert(pieces[i], sub, p).Err?
    decreases |pieces|
  {
    if |pieces| > 0 && Convert(pieces[0], sub, p).Ok? {
      ConvertPiecesRaises(pieces[1..], sub, p);
      assert forall i :: 1 <= i < |pieces| ==> pieces[i] == pieces[1..][i - 1];
    }
  }

  /** A parse that a set can hold: it succeeded and is not a signalling
      NaN, whose hash raises `TypeError`. */
  predicate Hashable(d: Option<Decimal>) {
    d.Some? && d.value != NaN(true)
  }

  /** `set(Decimal(item) for item in pieces)`: each piece is parsed and then
      added to the set, in order. A piece that does not parse raises past the
      converter; a signalling NaN cannot be hashed, and its `TypeError` makes
      the converter answer `None`. Whichever comes first decides. */
  function NumberSet(pieces: seq<string>, p: Parsers): (r: Result<Option<set<Decimal>>>)
    ensures r.Ok? && r.value.Some? <==> forall i :: 0 <= i < |pieces| ==> Hashable(p.decimal(pieces[i]))
    ensures r.Ok? && r.value.Some? ==>
      forall d :: d in r.value.value <==> exists i :: 0 <= i < |pieces| && p.decimal(pieces[i]) == Some(d)
    ensures r.Err? <==>
      exists i :: 0 <= i < |pieces| && p.decimal(pieces[i]).None? && forall j :: 0 <= j < i ==> Hashable(p.decimal(pieces[j]))
    decreases |pieces|
  {
    if |pieces| == 0 then Ok(Some({}))
    else
      match p.decimal(pieces[0])
      case None => Err(InvalidDecimal(pieces[0]))
      case Some(d) =>
        if d == NaN(true) then Ok(None)
        else
          var rest :- NumberSet(pieces[1..], p);
          assert forall i :: 1 <= i < |pieces| ==> pieces[i] == pieces[1..][i - 1];
          Ok(if rest.Some? then Some({d} + rest.value) else None)
  }

  /** A piece that `Pieces` could have produced: non-empty, comma-free and
      without white space at either end. */
  predicate CleanPiece(x: string) {
    x != "" && ',' !in x && !IsSpace(x[0]) && !IsSpace(x[|x| - 1])
  }

  lemma CleanPieceIsStripped(x: string)
    requires CleanPiece(x)
    ensures Strip(x) == x
  {
    assert SpanEnd(x, 0) == 0;
    assert SpanStart(x, 0, |x|) == |x|;
    assert x[0..|x|] == x;
  }

  lemma {:induction false} KeepNonEmptyKeepsAll(ps: seq<string>)
    requires forall i :: 0 <= i < |ps| ==> ps[i] != ""
    ensures KeepNonEmpty(ps) == ps
    decreases |ps|
  {
    if |ps| > 0 {
      KeepNonEmptyKeepsAll(ps[1..]);
      assert [ps[0]] + ps[1..] == ps;
    }
  }

  /** Joining clean pieces with commas and reading them back as list pieces
      gives the same pieces in the same order. */
  lemma PiecesOfJoin(ps: seq<string>)
    requires |ps| >= 1
    requires forall i :: 0 <= i < |ps| ==> CleanPiece(ps[i])
    ensures Pieces(Join(ps, ',')) == ps
  {
    SplitJoin(ps, ',');
    forall i | 0 <= i < |ps| ensures Strip(ps[i]) == ps[i] {
      CleanPieceIsStripped(ps[i]);
    }
    assert StripAll(ps) == ps;
    KeepNonEmptyKeepsAll(ps);
  }

  lemma {:induction false} JoinStartsWithFirst(ps: seq<string>, sep: char)
    requires |ps| >= 1
    ensures |Join(ps, sep)| >= |ps[0]|
    ensures Join(ps, sep)[..|ps[0]|] == ps[0]
  {
    if |ps| > 1 {
      assert Join(ps, sep) == ps[0] + ([sep] + Join(ps[1..], sep));
    }
  }

  /** The converted pieces of a list of strings. */
  function StringValues(ps: seq<string>): (vs: seq<Option<Value>>)
    ensures |vs| == |ps| && forall i :: 0 <= i < |ps| ==> vs[i] == Some(VStr(ps[i]))
  {
    seq(|ps|, i requires 0 <= i < |ps| => Some(VStr(ps[i])))
  }

  /** `L` round trip: clean strings joined with commas convert back to the
      list of those strings. */
  lemma ListRoundTrip(ps: seq<string>, p: Parsers)
    requires |ps| >= 1
    requires forall i :: 0 <= i < |ps| ==> CleanPiece(ps[i])
    ensures Convert(Join(ps, ','), L(S), p) == Ok(Some(VList(StringValues(ps))))
  {
    var text := Join(ps, ',');
    JoinStartsWithFirst(ps, ',');
    assert text != "";
    PiecesOfJoin(ps);
    ConvertStrings(ps, p);
    ConvertList(text, S, p);
  }

  /** A non-empty `L` cell is the list of its pieces' conversions. */
  lemma ConvertList(text: string, sub: Tag, p: Parsers)
    requires text != ""
    ensures ConvertPieces(Pieces(text), sub, p).Ok? ==>
      Convert(text, L(sub), p) == Ok(Some(VList(ConvertPieces(Pieces(text), sub, p).value)))
  {
  }

  /** Non-empty pieces converted as strings are kept as they are. */
  lemma ConvertStrings(ps: seq<string>, p: Parsers)
    requires forall i :: 0 <= i < |ps| ==> ps[i] != ""
    ensures ConvertPieces(ps, S, p) == Ok(StringValues(ps))
  {
    var r := ConvertPieces(ps, S, p);
    ConvertPiecesRaises(ps, S, p);
    assert r.Ok?;
    var vs := StringValues(ps);
    forall i | 0 <= i < |ps| ensures r.value[i] == vs[i] {
      assert Convert(ps[i], S, p) == Ok(r.value[i]);
      assert Convert(ps[i], S, p) == Ok(Some(VStr(ps[i])));
    }
    assert r.value == vs;
  }

  /** `SS` round trip: clean strings joined with commas convert to exactly
      the set of those strings. */
  lemma StringSetRoundTrip(ps: seq<string>, p: Parsers)
    requires |ps| >= 1
    requires forall i :: 0 <= i < |ps| ==> CleanPiece(ps[i])
    ensures Convert(Join(ps, ','), SS, p) == Ok(Some(VStrSet(set x | x in ps)))
  {
    JoinStartsWithFirst(ps, ',');
    PiecesOfJoin(ps);
  }

  /** `SS`: a non-empty cell converts to exactly the set of its pieces. */
  lemma StringSetContents(text: string, p: Parsers)
    requires text != ""
    ensures Convert(text, SS, p) == Ok(Some(VStrSet(set x | x in Pieces(text))))
  {
  }

  /** `NS`: the conversion raises exactly when a piece fails to parse
      before any signalling NaN; it yields a set exactly when every piece
      parses to a hashable number, and the set holds exactly those numbers. */
  lemma NumberSetMembers(text: string, p: Parsers)
    requires text != ""
    ensures var ps := Pieces(text);
      Convert(text, NS, p).Err? <==>
        exists i :: 0 <= i < |ps| && p.decimal(ps[i]).None? && forall j :: 0 <= j < i ==> Hashable(p.decimal(ps[j]))
    ensures var ps := Pieces(text);
      Convert(text, NS, p).Ok? && Convert(text, NS, p).value.Some? <==>
        forall i :: 0 <= i < |ps| ==> Hashable(p.decimal(ps[i]))
    ensures Convert(text, NS, p).Ok? && Convert(text, NS, p).value.Some? ==>
      forall d :: d in Convert(text, NS, p).value.value.nums <==>
        exists i :: 0 <= i < |Pieces(text)| && p.decimal(Pieces(text)[i]) == Some(d)
  {
    var r := NumberSet(Pieces(text), p);
    assert Convert(text, NS, p).Err? <==> r.Err?;
    assert Convert(text, NS, p).Ok? && Convert(text, NS, p).value.Some? <==> r.Ok? && r.value.Some?;
  }

  /** Two clean pieces joined by a comma read back as those two pieces. */
  lemma PiecesOfPair(a: string, b: string)
    requires CleanPiece(a) && CleanPiece(b)
    ensures Pieces(a + [','] + b) == [a, b]
  {
    PiecesAppend(a, b);
    PiecesOfClean(a);
    PiecesOfClean(b);
    assert [a] + [b] == [a, b];
  }

  lemma PiecesOfClean(x: string)
    requires CleanPiece(x)
    ensures Pieces(x) == [x]
  {
    PiecesOfJoin([x]);
    assert Join([x], ',') == x;
  }

  /** A signalling NaN after a number (`"1,sNaN"`) leaves the attribute out
      instead of producing a set. */
  lemma SignalingNaNDropsNumberSet(a: string, b: string, p: Parsers)
    requires CleanPiece(a) && CleanPiece(b)
    requires Hashable(p.decimal(a)) && p.decimal(b) == Some(NaN(true))
    ensures Convert(a + [','] + b, NS, p) == Ok(None)
  {
    PiecesOfPair(a, b);
    NumberSetOfPair(a, b, p);
    assert |a + [','] + b| > 0;
  }

  lemma NumberSetOfPair(a: string, b: string, p: Parsers)
    requires Hashable(p.decimal(a)) && p.decimal(b) == Some(NaN(true))
    ensures NumberSet([a, b], p) == Ok(None)
  {
    assert [a, b][1..] == [b];
  }
}

=== FILE: dicts.dfy ===
/** Python dictionaries with string keys, as the importer uses them for CSV
    rows and JSON objects: key/value pairs kept in insertion order, where
    assigning to an existing key keeps its position. */
module Dicts {
  import opened Base

  type Dict<V> = seq<(string, V)>

  /** No key occurs twice; every dictionary Python builds has this shape. */
  predicate Distinct<V>(d: Dict<V>) {
    forall i, j :: 0 <= i < j < |d| ==> KeyAt(d, i) != KeyAt(d, j)
  }

  /** The key of the `i`-th pair. */
  function KeyAt<V>(d: Dict<V>, i: nat): string
    requires i < |d|
  {
    d[i].0
  }

  /** Position of the first pair whose key is `k`, if there is one. */
  function Find<V>(d: Dict<V>, k: string): (r: Option<nat>)
    ensures r.Some? ==> r.value < |d| && d[r.value].0 == k
    ensures r.Some? ==> forall j :: 0 <= j < r.value ==> d[j].0 != k
    ensures r.None? <==> forall j :: 0 <= j < |d| ==> d[j].0 != k
    decreases |d|
  {
    if |d| == 0 then None
    else if d[0].0 == k then Some(0)
    else match Find(d[1..], k)
      case Some(i) => Some(i + 1)
      case None => None
  }

  /** `d.get(k)`: the value stored under `k`. */
  function Lookup<V>(d: Dict<V>, k: string): Option<V> {
    match Find(d, k)
    case Some(i) => Some(d[i].1)
    case None => None
  }

  /** `k in d` */
  predicate HasKey<V>(d: Dict<V>, k: string) {
    Find(d, k).Some?
  }

  /** `d.get(k, default)` */
  function GetOr<V>(d: Dict<V>, k: string, default: V): V {
    match Lookup(d, k)
    case Some(v) => v
    case None => default
  }

  /** `d[k] = v`: overwrites in place when `k` is present, appends otherwise. */
  function Put<V>(d: Dict<V>, k: string, v: V): (r: Dict<V>)
    ensures Lookup(r, k) == Some(v)
    ensures forall k' :: k' != k ==> Lookup(r, k') == Lookup(d, k')
    ensures Distinct(d) ==> Distinct(r)
    ensures |r| == if HasKey(d, k) then |d| else |d| + 1
  {
    match Find(d, k)
    case Some(i) =>
      var r := d[i := (k, v)];
      assert forall j :: 0 <= j < |d| ==> KeyAt(r, j) == KeyAt(d, j);
      forall k' | k' != k ensures Lookup(r, k') == Lookup(d, k') {
        FindDependsOnKeysOnly(d, r, k');
      }
      FindDependsOnKeysOnly(d, r, k);
      r
    case None =>
      var r := d + [(k, v)];
      assert forall j :: 0 <= j < |d| ==> KeyAt(r, j) == KeyAt(d, j) != k;
      forall k' ensures Find(r, k') == if k' == k then Some(|d|) else Find(d, k') {
        FindAppend(d, k, v, k');
      }
      r
  }

  lemma FindAppend<V>(d: Dict<V>, k: string, v: V, k': string)
    ensures Find(d + [(k, v)], k') ==
      if Find(d, k').Some? then Find(d, k') else if k' == k then Some(|d|) else None
  {
    var r := d + [(k, v)];
    assert forall j :: 0 <= j < |d| ==> r[j] == d[j];
    assert r[|d|].0 == k;
  }

  /** Two dictionaries with the same key sequence find every key at the same
      position. */
  lemma FindDependsOnKeysOnly<V>(d: Dict<V>, e: Dict<V>, k: string)
    requires |d| == |e|
    requires forall j :: 0 <= j < |d| ==> d[j].0 == e[j].0
    ensures Find(d, k) == Find(e, k)
  {
  }
}

=== FILE: progress.dfy ===
/** The progress tracker of an import job: a record of identity, counters,
    status and times, pure transitions with the clock passed in, the
    statistics derived at every save, and the row estimate of
    `count_csv_rows`. */
module Progress {
  import opened Base

  datatype Status = Pending | Running | Completed | Failed

  /** The status as the snapshot spells it. */
  function StatusName(s: Status): (r: string)
    ensures |r| >= 6
  {
    match s
    case Pending => "pending"
    case Running => "running"
    case Completed => "completed"
    case Failed => "failed"
  }

  /** The tracker's state. Times are seconds since the epoch, read from the
      clock by the caller. */
  datatype Tracker = Tracker(
    jobId: string,
    tableName: string,
    filePath: string,
    currentFile: string,
    startTime: real,
    lastUpdateTime: real,
    processed: int,
    failed: int,
    total: int,
    status: Status)

  /** `os.path.basename`: the text after the last `/`. */
  function Basename(path: string): (r: string)
    ensures '/' !in r
    ensures |r| <= |path| && path[|path| - |r|..] == r
    ensures |r| < |path| ==> path[|path| - |r| - 1] == '/'
    decreases |path|
  {
    if |path| == 0 || path[|path| - 1] == '/' then ""
    else Basename(path[..|path| - 1]) + [path[|path| - 1]]
  }

  /** `ProgressTracker(table_name, file_path, total_items, job_id)` at clock
      reading `now`. `generatedId` stands for the clock-and-uuid identifier
      used when no job id is given. */
  function NewTracker(tableName: string, filePath: string, total: int, jobId: string, generatedId: string, now: real): (t: Tracker)
    ensures t.processed == 0 && t.failed == 0 && t.total == total
    ensures t.status == Pending
    ensures t.startTime == now && t.lastUpdateTime == t.startTime
    ensures t.jobId == (if jobId != "" then jobId else generatedId)
    ensures t.tableName == tableName && t.filePath == filePath
    ensures t.currentFile == Basename(filePath) && '/' !in t.currentFile
  {
    Tracker(
      if jobId != "" then jobId else generatedId,
      tableName, filePath, Basename(filePath),
      now, now, 0, 0, total, Pending)
  }

  /** `start()` */
  function Start(t: Tracker): (r: Tracker)
    ensures r.status == Running
    ensures r == t.(status := Running)
  {
    t.(status := Running)
  }

  /** `update(processed, failed)` at clock reading `now`. */
  function Update(t: Tracker, processed: int, failed: int, now: real): (r: Tracker)
    ensures r.processed - t.processed == processed && r.failed - t.failed == failed
    ensures r.status == t.status && r.lastUpdateTime == now
    ensures r.(processed := t.processed, failed := t.failed, lastUpdateTime := t.lastUpdateTime) == t
  {
    t.(processed := t.processed + processed, failed := t.failed + failed, lastUpdateTime := now)
  }

  /** `complete()` */
  function Complete(t: Tracker): (r: Tracker)
    ensures r.status == Completed
    ensures r == t.(status := Completed)
  {
    t.(status := Completed)
  }

  /** `fail(error_message)`; the message only reaches the snapshot. */
  function Fail(t: Tracker): (r: Tracker)
    ensures r.status == Failed
    ensures r == t.(status := Failed)
  {
    t.(status := Failed)
  }

  /** Python's `round(x, 2)` on the exact value: to the nearest hundredth,
      ties to the even hundredth. */
  function Round2(x: real): (r: real)
    ensures -1.0 / 200.0 <= r - x <= 1.0 / 200.0
    ensures (r * 100.0).Floor as real == r * 100.0
  {
    var y := x * 100.0;
    var n := y.Floor;
    var frac := y - n as real;
    var m := if frac < 0.5 then n else if frac > 0.5 then n + 1 else if n % 2 == 0 then n else n + 1;
    assert -0.5 <= m as real - y <= 0.5;
    var r := m as real / 100.0;
    assert r * 100.0 == m as real;
    assert (r * 100.0).Floor == m;
    assert r - x == (m as real - y) / 100.0;
    r
  }

  /** A value that already is a whole number of hundredths is kept. */
  lemma Round2Exact(k: int)
    ensures Round2(k as real / 100.0) == k as real / 100.0
  {
    assert (k as real / 100.0 * 100.0) == k as real;
  }

  /** Rounding never reverses the order of two values. */
  lemma Round2Monotone(x: real, y: real)
    requires x <= y
    ensures Round2(x) <= Round2(y)
  {
    var nx := (x * 100.0).Floor;
    var ny := (y * 100.0).Floor;
    assert nx <= ny;
    if nx == ny {
      assert x * 100.0 - nx as real <= y * 100.0 - ny as real;
    }
  }

  function Min(a: real, b: real): real {
    if a <= b then a else b
  }

  function Max(a: real, b: real): real {
    if a >= b then a else b
  }

  /** `progress_percentage`: the processed share of the total in percent,
      rounded to hundredths and capped at 100; 0 without a positive total.
      Failed items do not count. */
  function Percentage(processed: int, total: int): (r: real)
    ensures total <= 0 ==> r == 0.0
    ensures r <= 100.0
    ensures total > 0 && processed >= 0 ==> r >= 0.0
    ensures total > 0 && processed >= total ==> r == 100.0
    ensures total > 0 && r < 100.0 ==> processed < total
    ensures total > 0 ==>
      -1.0 / 200.0 <= r - Min(100.0, processed as real / total as real * 100.0) <= 1.0 / 200.0
  {
    if total > 0 then
      RoundedShareBounds(processed, total);
      Min(100.0, Round2(processed as real / total as real * 100.0))
    else 0.0
  }

  lemma RoundedShareBounds(processed: int, total: int)
    requires total > 0
    ensures var r := Round2(processed as real / total as real * 100.0);
      && (processed >= 0 ==> r >= 0.0)
      && (processed >= total ==> r >= 100.0)
  {
    var exact := processed as real / total as real * 100.0;
    if processed >= 0 {
      Round2Monotone(0.0, exact);
      Round2Exact(0);
    }
    if processed >= total {
      ShareAtLeastOne(processed as real, total as real);
      Round2Monotone(100.0, exact);
      Round2Exact(10000);
    }
  }

  lemma ShareAtLeastOne(a: real, b: real)
    requires 0.0 < b <= a
    ensures a / b >= 1.0
  {
    assert a / b * b == a;
  }

  /** The estimated completion time, when there is one. */
  datatype Eta = Unknown | At(time: real)

  /** The seconds since the epoch that `datetime.fromtimestamp` accepts: from
      the start of year 1 to the end of year 9999, in UTC. */
  const FirstTimestamp: real := -62135596800.0
  const EndTimestamp: real := 253402300800.0

  predicate InDateRange(time: real) {
    FirstTimestamp <= time < EndTimestamp
  }

  /** The time the remaining items will be done by, at the rate observed so
      far. */
  function Completion(processed: int, total: int, elapsed: real, now: real): (r: real)
    requires processed > 0 && elapsed > 0.0
    ensures (r - now) * processed as real == (total - processed) as real * elapsed
    ensures processed < total ==> r > now
  {
    var rate := processed as real / elapsed;
    var r := now + (total - processed) as real / rate;
    assert rate * elapsed == processed as real;
    assert (r - now) * rate == (total - processed) as real;
    assert (r - now) * processed as real == (r - now) * rate * elapsed;
    r
  }

  /** `estimated_completion`. It is only computed while some but not all
      items are processed; a rate of zero elapsed seconds is a division by
      zero that escapes, a non-positive rate leaves it unknown, and a
      completion time outside the years `datetime` can represent raises when
      it is formatted. */
  function Estimate(processed: int, total: int, elapsed: real, now: real): (r: Result<Eta>)
    ensures r.Err? <==>
      && processed > 0 && total > 0 && Percentage(processed, total) < 100.0
      && (elapsed == 0.0 || (elapsed > 0.0 && !InDateRange(Completion(processed, total, elapsed, now))))
    ensures r.Ok? && r.value.At? ==> 0 < processed < total && elapsed > 0.0
    ensures r.Ok? && r.value.At? ==> r.value.time > now && InDateRange(r.value.time)
    ensures r.Ok? && r.value.At? ==> r.value.time == Completion(processed, total, elapsed, now)
    ensures r.Ok? && r.value.At? ==> Percentage(processed, total) < 100.0
    ensures
      && processed > 0 && total > 0 && Percentage(processed, total) < 100.0 && elapsed > 0.0
      && InDateRange(Completion(processed, total, elapsed, now))
      ==> r.Ok? && r.value.At?
    ensures processed <= 0 || total <= 0 || processed >= total ==> r == Ok(Unknown)
  {
    if processed > 0 && total > 0 && Percentage(processed, total) < 100.0 then
      if elapsed == 0.0 then Err(DivisionByZero)
      else
        var rate := processed as real / elapsed;
        if rate > 0.0 then
          var when := Completion(processed, total, elapsed, now);
          if InDateRange(when) then Ok(At(when)) else Err(TimestampOutOfRange)
        else Ok(Unknown)
    else Ok(Unknown)
  }

  /** `items_per_second` */
  function ItemsPerSecond(processed: int, elapsed: real): (r: real)
    ensures elapsed <= 0.0 ==> r == 0.0
    ensures elapsed > 0.0 && processed >= 0 ==> r >= 0.0
    ensures elapsed > 0.0 ==> -1.0 / 200.0 <= r - processed as real / Max(1.0, elapsed) <= 1.0 / 200.0
  {
    if elapsed > 0.0 then
      RoundedRateBound(processed, elapsed);
      Round2(processed as real / Max(1.0, elapsed))
    else 0.0
  }

  lemma RoundedRateBound(processed: int, elapsed: real)
    requires elapsed > 0.0
    ensures processed >= 0 ==> Round2(processed as real / Max(1.0, elapsed)) >= 0.0
  {
    if processed >= 0 {
      Round2Monotone(0.0, processed as real / Max(1.0, elapsed));
      Round2Exact(0);
    }
  }

  /** The JSON document `_save_progress` writes. */
  datatype Snapshot = Snapshot(
    jobId: string,
    tableName: string,
    currentFile: string,
    startTime: real,
    lastUpdateTime: real,
    processedItems: int,
    failedItems: int,
    totalItems: int,
    status: string,
    cacheTime: real,
    errorMessage: Option<string>,
    progressPercentage: real,
    elapsedTime: real,
    estimatedCompletion: Eta,
    itemsPerSecond: real)

  /** `_save_progress(error_message)` at clock reading `now`: the tracker's
      fields, the message when it is non-empty, and the statistics of
      `_calculate_progress`, whose division by zero escapes. */
  function Save(t: Tracker, now: real, message: string): (r: Result<Snapshot>)
    ensures r.Err? <==> Estimate(t.processed, t.total, now - t.startTime, now).Err?
    ensures r.Ok? ==> var s := r.value;
      && s.jobId == t.jobId && s.tableName == t.tableName && s.currentFile == t.currentFile
      && s.startTime == t.startTime && s.lastUpdateTime == t.lastUpdateTime
      && s.processedItems == t.processed && s.failedItems == t.failed && s.totalItems == t.total
      && s.status == StatusName(t.status) && s.cacheTime == now
      && (s.errorMessage.Some? <==> message != "")
      && (s.errorMessage.Some? ==> s.errorMessage.value == message)
      && s.progressPercentage == Percentage(t.processed, t.total)
      && -1.0 / 200.0 <= s.elapsedTime - (now - t.startTime) <= 1.0 / 200.0
      && Ok(s.estimatedCompletion) == Estimate(t.processed, t.total, now - t.startTime, now)
      && s.itemsPerSecond == ItemsPerSecond(t.processed, now - t.startTime)
  {
    var elapsed := now - t.startTime;
    var eta :- Estimate(t.processed, t.total, elapsed, now);
    Ok(Snapshot(
      t.jobId, t.tableName, t.currentFile, t.startTime, t.lastUpdateTime,
      t.processed, t.failed, t.total, StatusName(t.status), now,
      if message != "" then Some(message) else None,
      Percentage(t.processed, t.total),
      Round2(elapsed),
      eta,
      ItemsPerSecond(t.processed, elapsed)))
  }

  /** Two updates amount to one update by their sums, in either order. */
  lemma UpdatesCombine(t: Tracker, p1: int, f1: int, p2: int, f2: int, now1: real, now2: real)
    ensures Update(Update(t, p1, f1, now1), p2, f2, now2) == Update(t, p1 + p2, f1 + f2, now2)
    ensures Update(Update(t, p1, f1, now1), p2, f2, now2) == Update(Update(t, p2, f2, now1), p1, f1, now2)
  {
  }

  /** With non-negative deltas the counters never decrease, and the
      percentage never goes down. */
  lemma UpdateMonotone(t: Tracker, processed: int, failed: int, now: real)
    requires processed >= 0 && failed >= 0
    ensures Update(t, processed, failed, now).processed >= t.processed
    ensures Update(t, processed, failed, now).failed >= t.failed
    ensures Percentage(Update(t, processed, failed, now).processed, t.total) >= Percentage(t.processed, t.total)
  {
    if t.total > 0 {
      var t' := Update(t, processed, failed, now);
      var a := t.processed as real / t.total as real;
      var b := t'.processed as real / t.total as real;
      DivMonotone(t.processed as real, t'.processed as real, t.total as real);
      Round2Monotone(a * 100.0, b * 100.0);
    }
  }

  lemma DivMonotone(x: real, y: real, d: real)
    requires x <= y && d > 0.0
    ensures x / d <= y / d
  {
    assert y / d - x / d == (y - x) / d;
  }

  /** Nothing guards a terminal state: a completed job can be failed, a
      failed one completed or restarted. */
  lemma NoTerminalGuard(t: Tracker)
    ensures Fail(Complete(t)).status == Failed
    ensures Complete(Fail(t)).status == Completed
    ensures Start(Complete(t)).status == Running
  {
  }

  /** A job of 100 items started after 1970: after `update(40, 10)` at a
      clock reading before the year 5000 the snapshot shows 40 processed, 10
      failed and 40 percent; after a further `update(60, 0)` it shows 100
      processed and 100 percent, and no estimate. */
  lemma HundredItemScenario(t0: Tracker, now1: real, now2: real)
    requires t0.processed == 0 && t0.failed == 0 && t0.total == 100
    requires 0.0 <= t0.startTime < now1 < 95000000000.0 && now2 > t0.startTime
    ensures var t1 := Update(t0, 40, 10, now1);
      && Save(t1, now1, "").Ok?
      && Save(t1, now1, "").value.processedItems == 40
      && Save(t1, now1, "").value.failedItems == 10
      && Save(t1, now1, "").value.progressPercentage == 40.0
    ensures var t2 := Update(Update(t0, 40, 10, now1), 60, 0, now2);
      && Save(t2, now2, "").Ok?
      && Save(t2, now2, "").value.processedItems == 100
      && Save(t2, now2, "").value.progressPercentage == 100.0
      && Save(t2, now2, "").value.estimatedCompletion == Unknown
  {
    assert 40 as real / 100 as real * 100.0 == 4000 as real / 100.0;
    Round2Exact(4000);
    var c := Completion(40, 100, now1 - t0.startTime, now1);
    assert (c - now1) * 40.0 == 60.0 * (now1 - t0.startTime);
    assert InDateRange(c);
  }

  /** Once the clock has moved past the start, a snapshot can only fail to
      be written when the job is under way and its estimated completion lies
      beyond the years `datetime` can represent. */
  lemma SaveSucceedsWhenTimeHasPassed(t: Tracker, now: real, message: string)
    requires now > t.startTime
    ensures Save(t, now, message).Err? ==>
      0 < t.processed < t.total && !InDateRange(Completion(t.processed, t.total, now - t.startTime, now))
    ensures t.processed <= 0 || t.processed >= t.total ==> Save(t, now, message).Ok?
  {
  }

  /** `fail(message)` records the message exactly when it is non-empty. */
  lemma FailRecordsMessage(t: Tracker, now: real, message: string)
    requires Save(Fail(t), now, message).Ok?
    ensures Save(Fail(t), now, message).value.status == "failed"
    ensures Save(Fail(t), now, message).value.errorMessage == if message != "" then Some(message) else None
  {
  }

  /** The text left after the first line and its terminator (`\n`, `\r` or
      `\r\n`, as Python's universal newlines recognise them). */
  function AfterFirstLine(s: string): (r: string)
    ensures |s| > 0 ==> |r| < |s|
    ensures |r| <= |s|
    decreases |s|
  {
    if |s| == 0 then []
    else if s[0] == '\n' then s[1..]
    else if s[0] == '\r' then (if |s| > 1 && s[1] == '\n' then s[2..] else s[1..])
    else AfterFirstLine(s[1..])
  }

  /** `sum(1 for _ in f)`: the number of lines, counting a last line
      without terminator. */
  function CountLines(s: string): (r: nat)
    ensures r <= |s|
    ensures r == 0 <==> s == []
    decreases |s|
  {
    if |s| == 0 then 0 else 1 + CountLines(AfterFirstLine(s))
  }

  /** `count_csv_rows`: lines minus the header line, `0` when the file
      cannot be read or decoded (`None` here). */
  function CountRows(content: Option<string>): (r: int)
    ensures content.None? ==> r == 0
    ensures content == Some([]) ==> r == -1
    ensures content.Some? ==> r == CountLines(content.value) - 1
  {
    match content
    case None => 0
    case Some(s) => CountLines(s) - 1
  }

  /** A line: no line terminator inside. */
  predicate IsLine(l: string) {
    '\n' !in l && '\r' !in l
  }

  /** Lines each followed by `term`. */
  function Terminated(lines: seq<string>, term: string): string
    decreases |lines|
  {
    if |lines| == 0 then [] else lines[0] + term + Terminated(lines[1..], term)
  }

  lemma {:induction false} AfterLine(l: string, term: string, rest: string)
    requires IsLine(l) && (term == "\n" || term == "\r\n" || term == "\r")
    requires term == "\r" ==> !(|rest| > 0 && rest[0] == '\n')
    ensures AfterFirstLine(l + term + rest) == rest
    decreases |l|
  {
    if |l| > 0 {
      assert (l + term + rest)[1..] == l[1..] + term + rest;
      AfterLine(l[1..], term, rest);
    } else {
      assert l + term + rest == term + rest;
    }
  }

  /** Terminated lines never start with a bare line feed. */
  lemma TerminatedStart(lines: seq<string>, term: string)
    requires forall i :: 0 <= i < |lines| ==> IsLine(lines[i])
    requires term == "\n" || term == "\r\n" || term == "\r"
    ensures term == "\r" ==> !(|Terminated(lines, term)| > 0 && Terminated(lines, term)[0] == '\n')
  {
    if |lines| > 0 && term == "\r" {
      var t := Terminated(lines, term);
      assert t == lines[0] + term + Terminated(lines[1..], term);
      if |lines[0]| > 0 {
        assert t[0] == lines[0][0];
      } else {
        assert t[0] == '\r';
      }
    }
  }

  /** Terminated lines are counted one each, for every terminator Python
      recognises. */
  lemma {:induction false} CountTerminatedLines(lines: seq<string>, term: string)
    requires forall i :: 0 <= i < |lines| ==> IsLine(lines[i])
    requires term == "\n" || term == "\r\n" || term == "\r"
    ensures CountLines(Terminated(lines, term)) == |lines|
    decreases |lines|
  {
    if |lines| > 0 {
      var rest := Terminated(lines[1..], term);
      TerminatedStart(lines[1..], term);
      AfterLine(lines[0], term, rest);
      CountTerminatedLines(lines[1..], term);
    }
  }

  /** A header followed by `n` terminated records is an estimate of `n`. */
  lemma CountRowsOfRecords(header: string, records: seq<string>, term: string)
    requires IsLine(header) && forall i :: 0 <= i < |records| ==> IsLine(records[i])
    requires term == "\n" || term == "\r\n" || term == "\r"
    ensures CountRows(Some(Terminated([header] + records, term))) == |records|
  {
    var lines := [header] + records;
    assert lines[1..] == records;
    CountTerminatedLines(lines, term);
  }
}

=== FILE: text.dfy ===
/** The handful of Python string operations the importer relies on:
    `str.strip()`, `str.lower()`, `str.split(sep)`, `str.startswith` and
    substring membership, with the byte-order mark the CSV headers may carry. */
module Text {

  /** U+FEFF, the byte-order mark that may prefix the first CSV header. */
  const BOM: char := '\U{FEFF}'

  /** Python's `str.isspace()` for a single character: the ASCII controls
      9-13 and 28-31, the space, and the Unicode space separators. U+FEFF is
      not among them, so `strip()` never removes a byte-order mark. */
  predicate IsSpace(c: char) {
    c in Whitespace
  }

  const Whitespace: set<char> :=
    {'\t', '\n', '\U{0B}', '\U{0C}', '\r', '\U{1C}', '\U{1D}', '\U{1E}', '\U{1F}', ' ',
     '\U{85}', '\U{A0}', '\U{1680}', '\U{2000}', '\U{2001}', '\U{2002}', '\U{2003}',
     '\U{2004}', '\U{2005}', '\U{2006}', '\U{2007}', '\U{2008}', '\U{2009}', '\U{200A}',
     '\U{2028}', '\U{2029}', '\U{202F}', '\U{205F}', '\U{3000}'}

  predicate StartsWith(s: string, c: char) {
    |s| > 0 && s[0] == c
  }

  /** The first position from `i` on that does not hold white space, or
      the length of `s` when there is none. */
  function SpanEnd(s: string, i: nat): (k: nat)
    requires i <= |s|
    ensures i <= k <= |s|
    ensures forall j :: i <= j < k ==> IsSpace(s[j])
    ensures k < |s| ==> !IsSpace(s[k])
    decreases |s| - i
  {
    if i < |s| && IsSpace(s[i]) then SpanEnd(s, i + 1) else i
  }

  /** The position after the last character before `hi`, and from `lo` on,
      that is not white space, or `lo` when there is none. */
  function SpanStart(s: string, lo: nat, hi: nat): (k: nat)
    requires lo <= hi <= |s|
    ensures lo <= k <= hi
    ensures forall j :: k <= j < hi ==> IsSpace(s[j])
    ensures k > lo ==> !IsSpace(s[k - 1])
    decreases hi - lo
  {
    if lo < hi && IsSpace(s[hi - 1]) then SpanStart(s, lo, hi - 1) else hi
  }

  /** Python's `s.strip()`: the infix of `s` left once its leading and its
      trailing white space are removed. */
  function Strip(s: string): (r: string)
    ensures var a := SpanEnd(s, 0);
      && a + |r| <= |s| && r == s[a..a + |r|]
      && (forall j :: 0 <= j < a ==> IsSpace(s[j]))
      && (forall j :: a + |r| <= j < |s| ==> IsSpace(s[j]))
    ensures r == [] || (!IsSpace(r[0]) && !IsSpace(r[|r| - 1]))
  {
    var a := SpanEnd(s, 0);
    s[a..SpanStart(s, a, |s|)]
  }

  /** Stripping never brings in a character the text did not hold. */
  lemma StripKeepsOut(s: string, c: char)
    requires c !in s
    ensures c !in Strip(s)
  {
    var r := Strip(s);
    var a := SpanEnd(s, 0);
    forall i | 0 <= i < |r| ensures r[i] != c {
      assert r[i] == s[a + i];
    }
  }

  /** Python's `str.lower()` restricted to ASCII letters. */
  function LowerChar(c: char): char {
    if 'A' <= c <= 'Z' then (c as int + 32) as char else c
  }

  function Lower(s: string): string {
    seq(|s|, i requires 0 <= i < |s| => LowerChar(s[i]))
  }

  /** Python's `s.split(sep)` for a one-character separator: the pieces
      between separators, always at least one, none containing `sep`. */
  function Split(s: string, sep: char): (r: seq<string>)
    ensures |r| >= 1
    ensures forall i :: 0 <= i < |r| ==> sep !in r[i]
    ensures forall i :: 0 <= i < |r| ==> |r[i]| + |r| - 1 <= |s|
    ensures |r| == 1 <==> sep !in s
    decreases |s|
  {
    if |s| == 0 then [""]
    else
      var rest := Split(s[1..], sep);
      if s[0] == sep then [""] + rest
      else
        assert sep in s[1..] ==> sep in s;
        [[s[0]] + rest[0]] + rest[1..]
  }

  /** `sep.join(pieces)`, the inverse of `Split`. */
  function Join(pieces: seq<string>, sep: char): string
    requires |pieces| >= 1
    decreases |pieces|
  {
    if |pieces| == 1 then pieces[0] else pieces[0] + [sep] + Join(pieces[1..], sep)
  }

  /** Re-joining the pieces of a split gives back the original text. */
  lemma {:induction false} JoinSplit(s: string, sep: char)
    ensures Join(Split(s, sep), sep) == s
    decreases |s|
  {
    if |s| > 0 {
      var rest := Split(s[1..], sep);
      JoinSplit(s[1..], sep);
      if s[0] == sep {
        assert Split(s, sep) == [""] + rest;
        assert ([""] + rest)[1..] == rest;
      } else if |rest| == 1 {
        assert Split(s, sep) == [[s[0]] + rest[0]];
      } else {
        var r := Split(s, sep);
        assert r == [[s[0]] + rest[0]] + rest[1..];
        assert r[1..] == rest[1..];
        assert Join(rest, sep) == rest[0] + [sep] + Join(rest[1..], sep);
      }
    }
  }

  lemma {:induction false} SplitAfterPiece(p: string, t: string, sep: char)
    requires sep !in p
    ensures Split(p + [sep] + t, sep) == [p] + Split(t, sep)
    decreases |p|
  {
    if |p| > 0 {
      SplitAfterPiece(p[1..], t, sep);
      assert (p + [sep] + t)[1..] == p[1..] + [sep] + t;
      assert [p[0]] + p[1..] == p;
    } else {
      assert (p + [sep] + t)[1..] == t;
    }
  }

  /** Splitting two texts joined by the separator gives the pieces of the
      first followed by the pieces of the second. */
  lemma {:induction false} SplitAround(a: string, b: string, sep: char)
    ensures Split(a + [sep] + b, sep) == Split(a, sep) + Split(b, sep)
    decreases |a|
  {
    if |a| == 0 {
      var s := a + [sep] + b;
      assert s[0] == sep && s[1..] == b;
      assert Split(s, sep) == [""] + Split(b, sep);
      assert Split(a, sep) == [""];
    } else {
      SplitAround(a[1..], b, sep);
      SplitAroundStep(a, b, sep);
    }
  }

  /** How `Split` reads the first character of a non-empty text. */
  lemma SplitFirst(s: string, sep: char)
    requires |s| > 0
    ensures s[0] == sep ==> Split(s, sep) == [""] + Split(s[1..], sep)
    ensures s[0] != sep ==> Split(s, sep) == [[s[0]] + Split(s[1..], sep)[0]] + Split(s[1..], sep)[1..]
  {
  }

  lemma SplitAroundStep(a: string, b: string, sep: char)
    requires |a| > 0
    requires Split(a[1..] + [sep] + b, sep) == Split(a[1..], sep) + Split(b, sep)
    ensures Split(a + [sep] + b, sep) == Split(a, sep) + Split(b, sep)
  {
    var s := a + [sep] + b;
    assert s[0] == a[0] && s[1..] == a[1..] + [sep] + b;
    SplitFirst(s, sep);
    SplitFirst(a, sep);
    ConsPieces(a[0], sep, Split(a[1..], sep), Split(b, sep));
  }

  /** The sequence step behind `SplitAroundStep`: prepending a character to
      the first piece commutes with appending further pieces. */
  lemma ConsPieces(c: char, sep: char, ra: seq<string>, sb: seq<string>)
    requires |ra| > 0
    ensures c == sep ==> [""] + (ra + sb) == ([""] + ra) + sb
    ensures c != sep ==> [[c] + (ra + sb)[0]] + (ra + sb)[1..] == ([[c] + ra[0]] + ra[1..]) + sb
  {
    assert (ra + sb)[0] == ra[0];
    assert (ra + sb)[1..] == ra[1..] + sb;
  }

  /** The first piece of a split is the text up to the first separator. */
  lemma SplitFirstPiece(s: string, sep: char)
    ensures var r := Split(s, sep)[0];
      && |r| <= |s| && s[..|r|] == r
      && (|r| < |s| ==> s[|r|] == sep)
      && (|r| == |s| <==> sep !in s)
  {
    var ps := Split(s, sep);
    JoinSplit(s, sep);
    if |ps| > 1 {
      assert s == ps[0] + [sep] + Join(ps[1..], sep);
      assert s[..|ps[0]|] == ps[0];
    } else {
      assert s == ps[0];
    }
  }

  /** A text without the separator splits into itself. */
  lemma SplitWithoutSeparator(s: string, sep: char)
    requires sep !in s
    ensures Split(s, sep) == [s]
  {
    JoinSplit(s, sep);
  }

  /** Splitting pieces that hold no separator after joining them gives back
      the same pieces. */
  lemma {:induction false} SplitJoin(pieces: seq<string>, sep: char)
    requires |pieces| >= 1
    requires forall i :: 0 <= i < |pieces| ==> sep !in pieces[i]
    ensures Split(Join(pieces, sep), sep) == pieces
    decreases |pieces|
  {
    if |pieces| == 1 {
      JoinSplit(pieces[0], sep);
    } else {
      SplitJoin(pieces[1..], sep);
      SplitAfterPiece(pieces[0], Join(pieces[1..], sep), sep);
      assert [pieces[0]] + pieces[1..] == pieces;
    }
  }

  /** Python's `p in s` for strings: `p` occurs contiguously in `s`. */
  predicate IsInfix(p: string, s: string)
    decreases |s|
  {
    |p| <= |s| && (s[..|p|] == p || IsInfix(p, s[1..]))
  }
}

=== FILE: transform.dfy ===
/** Document building: `build_nested_structure` and `transform_row` turn one
    CSV row into a DynamoDB item following the schema's "mapping" tree, and
    `read_csv_data` exposes BOM-prefixed headers under their clean names. */
module Transform {
  import opened Base
  import opened Text
  import opened Dicts
  import opened Values
  import opened Coercion

  /** A CSV row as `csv.DictReader` yields it: header to cell text, in
      column order. */
  type Row = Dict<string>

  /** The parts of the importer's configuration the transformer reads. An
      unset range key is the empty string (the source treats `None` and `""`
      alike). */
  datatype Config = Config(schema: Json, hashKey: string, rangeKey: string, batchSize: int)

  /** A leaf `"column:type..."`: the column is the text before the first
      colon. */
  function LeafColumn(spec: string): (r: string)
    ensures ':' !in r && |r| <= |spec| && spec[..|r|] == r
    ensures |r| < |spec| ==> spec[|r|] == ':'
    ensures |r| == |spec| <==> ':' !in spec
  {
    SplitFirstPiece(spec, ':');
    Split(spec, ':')[0]
  }

  /** The tag of a leaf is the text between its first and second colon (`S`
      when there is no colon); anything after the second colon is ignored. */
  function LeafTag(spec: string): (r: Tag)
    ensures ':' !in spec ==> r == S
    ensures ':' in spec ==> r == ParseTag(LeafColumn(spec[|LeafColumn(spec)| + 1..]))
  {
    var pieces := Split(spec, ':');
    LeafTagPieces(spec);
    ParseTag(if |pieces| > 1 then pieces[1] else "S")
  }

  /** The second piece of a leaf is the column-like prefix of the text after
      its first colon. */
  lemma LeafTagPieces(spec: string)
    ensures var pieces := Split(spec, ':'); var c := LeafColumn(spec);
      ':' in spec ==> |pieces| > 1 && pieces[1] == LeafColumn(spec[|c| + 1..])
  {
    var c := LeafColumn(spec);
    if ':' in spec {
      var rest := spec[|c| + 1..];
      assert spec == c + [':'] + rest;
      SplitAfterPiece(c, rest, ':');
    }
  }

  /** A leaf written as colon-separated parts names the column before the
      first colon and the tag between the first and the second. */
  lemma LeafSpecParts(column: string, tag: string, extra: seq<string>)
    requires ':' !in column && ':' !in tag
    requires forall i :: 0 <= i < |extra| ==> ':' !in extra[i]
    ensures LeafColumn(Join([column, tag] + extra, ':')) == column
    ensures LeafTag(Join([column, tag] + extra, ':')) == ParseTag(tag)
  {
    SplitJoin([column, tag] + extra, ':');
  }

  /** A list subtype written in a schema leaf (`column:L:N`) is dropped: the
      pieces are converted as strings. */
  lemma ListSubtypeDropped(column: string, sub: string)
    requires ':' !in column && ':' !in sub
    ensures LeafColumn(column + ":L:" + sub) == column
    ensures LeafTag(column + ":L:" + sub) == L(S)
  {
    var tail := "L" + [':'] + sub;
    assert column + ":L:" + sub == column + [':'] + tail;
    SplitAfterPiece(column, tail, ':');
    SplitAfterPiece("L", sub, ':');
  }

  /** A column name as compared after stripping its surrounding white space
      and lower-casing its ASCII letters. */
  function Normalized(name: string): string {
    Lower(Strip(name))
  }

  /** The header names resolution may settle on for a schema column: the name
      itself, the name without its leading BOM, the name with a BOM added, or
      any header equal to it once both are normalised. */
  predicate IsCandidate(column: string, key: string) {
    || key == column
    || (StartsWith(column, BOM) && key == column[1..])
    || (!StartsWith(column, BOM) && key == [BOM] + column)
    || Normalized(key) == Normalized(column)
  }

  /** Position of the first header, from position `i` on, whose normalised
      form is `target`. */
  function FirstNormalizedMatch(row: Row, target: string, i: nat): (r: Option<nat>)
    requires i <= |row|
    ensures r.Some? ==> i <= r.value < |row| && Normalized(row[r.value].0) == target
    ensures r.Some? ==> forall j :: i <= j < r.value ==> Normalized(row[j].0) != target
    ensures r.None? ==> forall j :: i <= j < |row| ==> Normalized(row[j].0) != target
    decreases |row| - i
  {
    if i == |row| then None
    else if Normalized(row[i].0) == target then Some(i)
    else FirstNormalizedMatch(row, target, i + 1)
  }

  /** Converts the cell stored under `key`, or yields `None` when there is
      no such header. */
  function ConvertCell(row: Row, key: string, tag: Tag, p: Parsers): (r: Result<Option<Value>>)
    ensures r != Ok(None) ==> exists i :: 0 <= i < |row| && row[i].0 == key && r == Convert(row[i].1, tag, p)
    ensures !HasKey(row, key) ==> r == Ok(None)
  {
    match Find(row, key)
    case Some(i) => Convert(row[i].1, tag, p)
    case None => Ok(None)
  }

  /** The other spelling of a column name tried after the exact one: without
      its leading BOM when it has one, with a BOM added otherwise. */
  function Toggled(column: string): (r: string)
    ensures StartsWith(column, BOM) ==> [BOM] + r == column
    ensures !StartsWith(column, BOM) ==> r == [BOM] + column
  {
    if StartsWith(column, BOM) then column[1..] else [BOM] + column
  }

  /** The value of one simple mapping. An exact header match ends the search
      whatever it converts to; otherwise the BOM variant of the name is tried,
      and while the value is still `None` the first header that matches after
      normalisation. A conversion that raises aborts the search. */
  function Resolve(row: Row, column: string, tag: Tag, p: Parsers): (r: Result<Option<Value>>)
    ensures HasKey(row, column) ==> r == Convert(Lookup(row, column).value, tag, p)
    ensures r != Ok(None) ==>
      exists i :: 0 <= i < |row| && IsCandidate(column, row[i].0) && r == Convert(row[i].1, tag, p)
    ensures (forall i :: 0 <= i < |row| ==> !IsCandidate(column, row[i].0)) ==> r == Ok(None)
  {
    if HasKey(row, column) then
      Convert(Lookup(row, column).value, tag, p)
    else
      var second :- ConvertCell(row, Toggled(column), tag, p);
      if second.Some? then Ok(second)
      else
        match FirstNormalizedMatch(row, Normalized(column), 0)
        case Some(i) => Convert(row[i].1, tag, p)
        case None => Ok(None)
  }

  /** The order of the search when no header is the column name itself:
      the other BOM spelling decides unless it is absent or converts to
      `None`. */
  lemma ResolveToggled(row: Row, column: string, tag: Tag, p: Parsers)
    requires !HasKey(row, column)
    ensures var v := ConvertCell(row, Toggled(column), tag, p);
      v != Ok(None) ==> Resolve(row, column, tag, p) == v
  {
  }

  /** When neither spelling gives a value, the first header equal to the
      column after normalisation decides, and without one the value is
      `None`. */
  lemma ResolveNormalized(row: Row, column: string, tag: Tag, p: Parsers, i: int)
    requires !HasKey(row, column) && ConvertCell(row, Toggled(column), tag, p) == Ok(None)
    ensures FirstNormalized(row, column, i) ==> Resolve(row, column, tag, p) == Convert(row[i].1, tag, p)
    ensures (forall k :: 0 <= k < |row| ==> Normalized(row[k].0) != Normalized(column)) ==>
      Resolve(row, column, tag, p) == Ok(None)
  {
    if FirstNormalized(row, column, i) {
      FirstMatchIsFirstNormalized(row, column, i);
    }
  }

  lemma FirstMatchIsFirstNormalized(row: Row, column: string, i: int)
    requires FirstNormalized(row, column, i)
    ensures FirstNormalizedMatch(row, Normalized(column), 0) == Some(i)
  {
  }

  /** Position `i` holds the first header equal to `column` after
      normalisation. */
  predicate FirstNormalized(row: Row, column: string, i: int) {
    && 0 <= i < |row| && Normalized(row[i].0) == Normalized(column)
    && forall j :: 0 <= j < i ==> Normalized(row[j].0) != Normalized(column)
  }

  /** A header the file spells with a BOM resolves under its clean name: the
      row `read_csv_data` yields holds the clean name, so the exact match
      finds the cell. */
  lemma ResolveFindsBomHeader(raw: Row, column: string, tag: Tag, p: Parsers)
    requires Distinct(raw) && !HasKey(raw, column) && HasKey(raw, [BOM] + column)
    ensures Resolve(NormalizeRow(raw), column, tag, p) == Convert(Lookup(raw, [BOM] + column).value, tag, p)
  {
    NormalizeRowSpec(raw, column);
  }

  /** An object entry `{"type": "M", ...}`, whose nested dict is built from
      its "fields" member. */
  predicate IsMapGroup(info: Json)
    requires info.JObj?
  {
    Lookup(info.members, "type") == Some(JStr("M"))
  }

  /** `r` is the nested dict `nested` as an attribute value, or the exception
      building it raised. */
  predicate Nests(r: Result<Option<Value>>, nested: Result<Item>) {
    && (nested.Ok? ==> r == Ok(Some(VMap(nested.value))))
    && (nested.Err? ==> r == Err(nested.error))
  }

  /** What one schema entry contributes to the item: a nested dict for an
      object entry (the `"fields"` of a `{"type": "M"}` group, the object
      itself otherwise), the resolved value for a string leaf. */
  function Contribution(row: Row, info: Json, p: Parsers): (r: Result<Option<Value>>)
    ensures info.JObj? && r.Ok? ==> r.value.Some? && r.value.value.VMap?
    ensures info.JObj? && IsMapGroup(info) && !HasKey(info.members, "fields") ==> r == Err(MissingFields)
    ensures info.JObj? && IsMapGroup(info) && HasKey(info.members, "fields") ==>
      Nests(r, BuildNested(row, Lookup(info.members, "fields").value, p))
    ensures info.JObj? && !IsMapGroup(info) ==> Nests(r, BuildNested(row, info, p))
    ensures info.JStr? ==> r == Resolve(row, LeafColumn(info.s), LeafTag(info.s), p)
    ensures !info.JObj? && !info.JStr? ==> r == Err(FieldSpecNotAString)
    decreases info, 2
  {
    match info
    case JObj(fields) =>
      var nested :- (
        if IsMapGroup(info) then
          match Lookup(fields, "fields")
          case Some(group) => BuildNested(row, group, p)
          case None => Err(MissingFields)
        else BuildNested(row, info, p));
      Ok(Some(VMap(nested)))
    case JStr(spec) => Resolve(row, LeafColumn(spec), LeafTag(spec), p)
    case _ => Err(FieldSpecNotAString)
  }

  /** `build_nested_structure(row, mapping)` */
  function BuildNested(row: Row, mapping: Json, p: Parsers): (r: Result<Item>)
    ensures !mapping.JObj? ==> r == Err(MappingNotAnObject)
    decreases mapping, 1
  {
    match mapping
    case JObj(members) => BuildMembers(row, mapping, 0, map[], p)
    case _ => Err(MappingNotAnObject)
  }

  /** The loop of `build_nested_structure` from entry `i` on, with the item
      built so far. */
  function BuildMembers(row: Row, mapping: Json, i: nat, acc: Item, p: Parsers): Result<Item>
    requires mapping.JObj? && i <= |mapping.members|
    decreases mapping, 0, |mapping.members| - i
  {
    var members := mapping.members;
    if i == |members| then Ok(acc)
    else
      var c :- Contribution(row, members[i].1, p);
      BuildMembers(row, mapping, i + 1, if c.Some? then acc[members[i].0 := c.value] else acc, p)
  }

  /** The entry names from position `i` on. */
  function NamesFrom(members: Dict<Json>, i: nat): set<string>
    requires i <= |members|
  {
    set j | i <= j < |members| :: members[j].0
  }

  /** Which entries contribute without raising. */
  function OkFlags(row: Row, members: Dict<Json>, p: Parsers): seq<bool> {
    seq(|members|, j requires 0 <= j < |members| => Contribution(row, members[j].1, p).Ok?)
  }

  /** The item after entry `i` has been added, when its contribution does
      not raise. */
  function AfterEntry(row: Row, mapping: Json, i: nat, acc: Item, p: Parsers): Item
    requires mapping.JObj? && i < |mapping.members|
  {
    var c := Contribution(row, mapping.members[i].1, p);
    if c.Ok? && c.value.Some? then acc[mapping.members[i].0 := c.value.value] else acc
  }

  lemma BuildMembersOkStep(row: Row, mapping: Json, i: nat, acc: Item, p: Parsers, flags: seq<bool>)
    requires mapping.JObj? && i < |mapping.members|
    requires flags == OkFlags(row, mapping.members, p)
    ensures !flags[i] ==> BuildMembers(row, mapping, i, acc, p).Err?
    ensures flags[i] ==> BuildMembers(row, mapping, i, acc, p) == BuildMembers(row, mapping, i + 1, AfterEntry(row, mapping, i, acc, p), p)
  {
    BuildMembersStep(row, mapping, i, acc, p);
  }

  lemma {:induction false} BuildMembersOk(row: Row, mapping: Json, i: nat, acc: Item, p: Parsers, flags: seq<bool>)
    requires mapping.JObj? && i <= |mapping.members|
    requires flags == OkFlags(row, mapping.members, p)
    ensures BuildMembers(row, mapping, i, acc, p).Ok? <==> forall j :: i <= j < |flags| ==> flags[j]
    decreases |mapping.members| - i
  {
    if i < |flags| {
      BuildMembersOkStep(row, mapping, i, acc, p, flags);
      if flags[i] {
        BuildMembersOk(row, mapping, i + 1, AfterEntry(row, mapping, i, acc, p), p, flags);
      }
      AllFrom(flags, i);
    }
  }

  /** All flags from `i` on hold exactly when the one at `i` and all from
      `i + 1` on do. */
  lemma AllFrom(flags: seq<bool>, i: nat)
    requires i < |flags|
    ensures (forall j :: i <= j < |flags| ==> flags[j]) <==> flags[i] && forall j :: i + 1 <= j < |flags| ==> flags[j]
  {
  }

  /** The loop fails exactly when some remaining entry's contribution
      raises. */
  lemma BuildMembersFails(row: Row, mapping: Json, i: nat, acc: Item, p: Parsers)
    requires mapping.JObj? && i <= |mapping.members|
    ensures BuildMembers(row, mapping, i, acc, p).Ok? <==>
      forall j :: i <= j < |mapping.members| ==> Contribution(row, mapping.members[j].1, p).Ok?
  {
    var flags := OkFlags(row, mapping.members, p);
    BuildMembersOk(row, mapping, i, acc, p, flags);
    assert forall j :: 0 <= j < |flags| ==> flags[j] == Contribution(row, mapping.members[j].1, p).Ok?;
  }

  /** The loop only adds keys named by the remaining entries, and leaves the
      other keys of the item built so far as they are. */
  lemma {:induction false} BuildMembersKeys(row: Row, mapping: Json, i: nat, acc: Item, p: Parsers)
    requires mapping.JObj? && i <= |mapping.members|
    ensures var r := BuildMembers(row, mapping, i, acc, p);
      r.Ok? ==> r.value.Keys <= acc.Keys + NamesFrom(mapping.members, i)
    ensures var r := BuildMembers(row, mapping, i, acc, p);
      r.Ok? ==> forall k :: k in acc && k !in NamesFrom(mapping.members, i) ==> k in r.value && r.value[k] == acc[k]
    decreases |mapping.members| - i
  {
    var ms := mapping.members;
    if i < |ms| {
      var c := Contribution(row, ms[i].1, p);
      if c.Ok? {
        var acc' := if c.value.Some? then acc[ms[i].0 := c.value.value] else acc;
        BuildMembersKeys(row, mapping, i + 1, acc', p);
        assert NamesFrom(ms, i) == {ms[i].0} + NamesFrom(ms, i + 1);
      }
    }
  }

  /** With distinct entry names, each remaining entry's name is present
      exactly when its contribution is a value, and holds that value. */
  lemma {:induction false} BuildMembersEntries(row: Row, mapping: Json, i: nat, acc: Item, p: Parsers)
    requires mapping.JObj? && i <= |mapping.members|
    requires Distinct(mapping.members)
    requires forall j :: i <= j < |mapping.members| ==> mapping.members[j].0 !in acc
    ensures var r := BuildMembers(row, mapping, i, acc, p); var ms := mapping.members;
      r.Ok? ==> forall j :: i <= j < |ms| ==>
        (ms[j].0 in r.value <==> Contribution(row, ms[j].1, p) != Ok(None))
        && (ms[j].0 in r.value ==> Contribution(row, ms[j].1, p) == Ok(Some(r.value[ms[j].0])))
    decreases |mapping.members| - i
  {
    var ms := mapping.members;
    if i < |ms| {
      var c := Contribution(row, ms[i].1, p);
      if c.Ok? {
        var acc' := if c.value.Some? then acc[ms[i].0 := c.value.value] else acc;
        forall j | i + 1 <= j < |ms| ensures ms[j].0 !in acc' {
          assert KeyAt(ms, i) != KeyAt(ms, j);
        }
        assert ms[i].0 !in NamesFrom(ms, i + 1) by {
          forall j | i + 1 <= j < |ms| ensures ms[j].0 != ms[i].0 {
            assert KeyAt(ms, i) != KeyAt(ms, j);
          }
        }
        BuildMembersEntries(row, mapping, i + 1, acc', p);
        BuildMembersKeys(row, mapping, i + 1, acc', p);
      }
    }
  }

  /** `build_nested_structure` over an object with distinct entry names:
      it fails exactly when some entry raises; otherwise every output key is
      an entry name, and an entry's name is present exactly when its
      contribution is a value, holding that value. */
  lemma BuildNestedSpec(row: Row, members: Dict<Json>, p: Parsers)
    requires Distinct(members)
    ensures var r := BuildNested(row, JObj(members), p);
      && (r.Ok? <==> forall j :: 0 <= j < |members| ==> Contribution(row, members[j].1, p).Ok?)
      && (r.Ok? ==> forall k :: k in r.value ==> exists j :: 0 <= j < |members| && members[j].0 == k)
      && (r.Ok? ==> forall j :: 0 <= j < |members| ==>
            (members[j].0 in r.value <==> Contribution(row, members[j].1, p) != Ok(None)))
      && (r.Ok? ==> forall j :: 0 <= j < |members| && members[j].0 in r.value ==>
            Contribution(row, members[j].1, p) == Ok(Some(r.value[members[j].0])))
  {
    BuildMembersFails(row, JObj(members), 0, map[], p);
    BuildMembersKeys(row, JObj(members), 0, map[], p);
    BuildMembersEntries(row, JObj(members), 0, map[], p);
  }

  /** An object entry always yields its key, holding a nested dict (possibly
      an empty one). */
  lemma ObjectEntryPresent(row: Row, members: Dict<Json>, p: Parsers, j: nat)
    requires Distinct(members) && j < |members| && members[j].1.JObj?
    requires BuildNested(row, JObj(members), p).Ok?
    ensures var item := BuildNested(row, JObj(members), p).value;
      members[j].0 in item && item[members[j].0].VMap?
  {
    BuildNestedSpec(row, members, p);
    var c := Contribution(row, members[j].1, p);
    assert c.Ok?;
  }

  /** A string leaf's key is present exactly when resolving its column finds
      a value, and then holds that value. */
  lemma LeafEntryPresence(row: Row, members: Dict<Json>, p: Parsers, j: nat)
    requires Distinct(members) && j < |members| && members[j].1.JStr?
    requires BuildNested(row, JObj(members), p).Ok?
    ensures var item := BuildNested(row, JObj(members), p).value;
      var name := members[j].0; var spec := members[j].1.s;
      var v := Resolve(row, LeafColumn(spec), LeafTag(spec), p);
      && (name in item <==> v.Ok? && v.value.Some?)
      && (name in item ==> v == Ok(Some(item[name])))
  {
    BuildNestedSpec(row, members, p);
    var c := Contribution(row, members[j].1, p);
    assert c.Ok?;
  }

  /** Output key used for the hash key by the default layout. */
  function HashField(cfg: Config): string {
    if cfg.hashKey != "" then cfg.hashKey else "myHashKey"
  }

  /** Output key used for the range key by the default layout. */
  function RangeField(cfg: Config): string {
    if cfg.rangeKey != "" then cfg.rangeKey else "myRangeKey"
  }

  /** `next(iter(row.values()), '')` */
  function FirstValue(row: Row): string {
    if |row| > 0 then row[0].1 else ""
  }

  /** The legacy layout used when the schema has no mapping: the raw texts of
      `column_a` (else the first cell) and `column_b` under the hash and range
      keys, `column_c` and `column_d` under `myAttributes`. Later keys of the
      dict literal win when two of them coincide. */
  function DefaultLayout(row: Row, cfg: Config): (item: Item)
    ensures item.Keys == {HashField(cfg), RangeField(cfg), "myAttributes"}
    ensures item["myAttributes"] == VMap(map[
      "attributeA" := VStr(GetOr(row, "column_c", "")),
      "attributeB" := VStr(GetOr(row, "column_d", ""))])
    ensures RangeField(cfg) != "myAttributes" ==>
      item[RangeField(cfg)] == VStr(GetOr(row, "column_b", ""))
    ensures HashField(cfg) != RangeField(cfg) && HashField(cfg) != "myAttributes" ==>
      item[HashField(cfg)] == VStr(GetOr(row, "column_a", FirstValue(row)))
  {
    var attributes := map[
      "attributeA" := VStr(GetOr(row, "column_c", "")),
      "attributeB" := VStr(GetOr(row, "column_d", ""))];
    map[HashField(cfg) := VStr(GetOr(row, "column_a", FirstValue(row)))]
       [RangeField(cfg) := VStr(GetOr(row, "column_b", ""))]
       ["myAttributes" := VMap(attributes)]
  }

  /** The schema's "mapping" when it has a truthy one; raises when a truthy
      schema is not an object. */
  function MappingOf(schema: Json): (r: Result<Option<Json>>)
    ensures r.Ok? && r.value.Some? ==> Truthy(r.value.value)
    ensures r.Err? <==> Truthy(schema) && !schema.JObj?
  {
    if !Truthy(schema) then Ok(None)
    else match schema
      case JObj(members) =>
        (match Lookup(members, "mapping")
         case Some(m) => if Truthy(m) then Ok(Some(m)) else Ok(None)
         case None => Ok(None))
      case _ => Err(SchemaNotAnObject)
  }

  /** `transform_row(row, config)` */
  function TransformRow(row: Row, cfg: Config, p: Parsers): (r: Result<Item>)
    ensures MappingOf(cfg.schema) == Ok(None) ==> r == Ok(DefaultLayout(row, cfg))
    ensures MappingOf(cfg.schema).Ok? && MappingOf(cfg.schema).value.Some? ==>
      r == BuildNested(row, MappingOf(cfg.schema).value.value, p)
  {
    var mapping :- MappingOf(cfg.schema);
    match mapping
    case None => Ok(DefaultLayout(row, cfg))
    case Some(m) => BuildNested(row, m, p)
  }

  /** The mapping of the end-to-end example: an `id` string and an `age`
      number. */
  const ExampleMapping: Json := JObj([("id", JStr("id:S")), ("age", JStr("age:N"))])

  /** The schema of the end-to-end example, with `id` as its hash key. */
  const ExampleSchema: Json := JObj([("hash_key", JStr("id")), ("mapping", ExampleMapping)])

  /** The end-to-end example, well-formed record: it becomes the item with
      the `id` text and the `age` number. */
  lemma ExampleGoodRow(p: Parsers, d: Decimal)
    requires p.decimal("30") == Some(d)
    ensures TransformRow([("id", "a1"), ("age", "30")], Config(ExampleSchema, "id", "", 25), p)
      == Ok(map["id" := VStr("a1"), "age" := VNum(d)])
  {
    ExampleUsesMapping([("id", "a1"), ("age", "30")], "id", p);
    ExampleGoodMembers(p, d);
  }

  /** The end-to-end example, record with an empty `id` and a non-numeric
      `age`: it raises on the number, so it is counted as a failure whatever
      becomes of its empty key. */
  lemma ExampleBadRow(p: Parsers)
    requires p.decimal("x").None?
    ensures TransformRow([("id", ""), ("age", "x")], Config(ExampleSchema, "id", "", 25), p)
      == Err(InvalidDecimal("x"))
  {
    ExampleUsesMapping([("id", ""), ("age", "x")], "id", p);
    ExampleBadMembers(p);
  }

  lemma ExampleGoodMembers(p: Parsers, d: Decimal)
    requires p.decimal("30") == Some(d)
    ensures BuildMembers([("id", "a1"), ("age", "30")], ExampleMapping, 0, map[], p)
      == Ok(map["id" := VStr("a1"), "age" := VNum(d)])
  {
    var good: Row := [("id", "a1"), ("age", "30")];
    ExampleCells(good, p);
    var one := map["id" := VStr("a1")];
    BuildMembersStep(good, ExampleMapping, 0, map[], p);
    BuildMembersStep(good, ExampleMapping, 1, one, p);
  }

  lemma ExampleBadMembers(p: Parsers)
    requires p.decimal("x").None?
    ensures BuildMembers([("id", ""), ("age", "x")], ExampleMapping, 0, map[], p) == Err(InvalidDecimal("x"))
  {
    var bad: Row := [("id", ""), ("age", "x")];
    ExampleCells(bad, p);
    BuildMembersStep(bad, ExampleMapping, 0, map[], p);
    BuildMembersStep(bad, ExampleMapping, 1, map[], p);
  }

  /** The example mapping's entries convert the row's first and second
      cells. */
  lemma ExampleCells(row: Row, p: Parsers)
    requires |row| == 2 && row[0].0 == "id" && row[1].0 == "age"
    ensures Contribution(row, ExampleMapping.members[0].1, p) == Convert(row[0].1, S, p)
    ensures Contribution(row, ExampleMapping.members[1].1, p) == Convert(row[1].1, N, p)
  {
    IdCell(row, p);
    AgeCell(row, p);
  }

  lemma IdCell(row: Row, p: Parsers)
    requires |row| == 2 && row[0].0 == "id"
    ensures Contribution(row, JStr("id:S"), p) == Convert(row[0].1, S, p)
  {
    IdLeaf();
    LeafCell(row, 0, "id:S", p);
  }

  lemma AgeCell(row: Row, p: Parsers)
    requires |row| == 2 && row[0].0 == "id" && row[1].0 == "age"
    ensures Contribution(row, JStr("age:N"), p) == Convert(row[1].1, N, p)
  {
    AgeLeaf();
    assert row[0].0 != row[1].0 by {
      assert |row[0].0| == 2 && |row[1].0| == 3;
    }
    LeafCell(row, 1, "age:N", p);
  }

  lemma ExampleUsesMapping(row: Row, hashKey: string, p: Parsers)
    ensures TransformRow(row, Config(ExampleSchema, hashKey, "", 25), p) == BuildMembers(row, ExampleMapping, 0, map[], p)
  {
    ExampleMappingOf();
  }

  lemma ExampleMappingOf()
    ensures MappingOf(ExampleSchema) == Ok(Some(ExampleMapping))
  {
    var ms := ExampleSchema.members;
    assert ms[0].0 != "mapping" && ms[1].0 == "mapping";
    assert Find(ms, "mapping") == Some(1);
  }

  lemma IdLeaf()
    ensures LeafColumn("id:S") == "id" && LeafTag("id:S") == S
  {
    assert "id:S" == "id" + [':'] + "S";
    SplitAfterPiece("id", "S", ':');
    SplitWithoutSeparator("S", ':');
  }

  lemma AgeLeaf()
    ensures LeafColumn("age:N") == "age" && LeafTag("age:N") == N
  {
    assert "age:N" == "age" + [':'] + "N";
    SplitAfterPiece("age", "N", ':');
    SplitWithoutSeparator("N", ':');
  }

  /** A leaf whose column is the first header at position `i` contributes
      that cell's conversion. */
  lemma LeafCell(row: Row, i: nat, spec: string, p: Parsers)
    requires i < |row| && row[i].0 == LeafColumn(spec)
    requires forall j :: 0 <= j < i ==> row[j].0 != row[i].0
    ensures Contribution(row, JStr(spec), p) == Convert(row[i].1, LeafTag(spec), p)
  {
    assert Find(row, row[i].0) == Some(i);
  }

  /** One step of the loop of `build_nested_structure`. */
  lemma BuildMembersStep(row: Row, mapping: Json, i: nat, acc: Item, p: Parsers)
    requires mapping.JObj? && i < |mapping.members|
    ensures var c := Contribution(row, mapping.members[i].1, p);
      BuildMembers(row, mapping, i, acc, p) ==
        if c.Err? then Err(c.error)
        else BuildMembers(row, mapping, i + 1, if c.value.Some? then acc[mapping.members[i].0 := c.value.value] else acc, p)
  {
  }

  /** One header of `read_csv_data`'s normalisation: keep the pair and, when
      the header starts with a BOM, also store the cell under the header
      without it. */
  function AddNormalized(acc: Row, key: string, value: string): (r: Row)
    ensures Distinct(acc) ==> Distinct(r)
  {
    var kept := Put(acc, key, value);
    if StartsWith(key, BOM) then Put(kept, key[1..], value) else kept
  }

  /** The first `n` headers of a row, normalised. */
  function NormalizePrefix(row: Row, n: nat): (r: Row)
    requires n <= |row|
    ensures Distinct(r)
  {
    if n == 0 then [] else AddNormalized(NormalizePrefix(row, n - 1), row[n - 1].0, row[n - 1].1)
  }

  /** The row `read_csv_data` yields for a row of the CSV reader. */
  function NormalizeRow(row: Row): (r: Row)
    ensures Distinct(r)
  {
    NormalizePrefix(row, |row|)
  }

  /** The rows `read_csv_data` yields, in file order. */
  function ReadRows(raw: seq<Row>): (r: seq<Row>)
    ensures |r| == |raw| && forall i :: 0 <= i < |raw| ==> r[i] == NormalizeRow(raw[i])
  {
    seq(|raw|, i requires 0 <= i < |raw| => NormalizeRow(raw[i]))
  }

  /** The effect of one normalisation step on a lookup. */
  lemma AddNormalizedLookup(acc: Row, key: string, value: string, k: string)
    ensures Lookup(AddNormalized(acc, key, value), k) ==
      if k == key || (StartsWith(key, BOM) && k == key[1..]) then Some(value) else Lookup(acc, k)
  {
  }

  /** Appending a pair only answers for keys not already present. */
  lemma LookupAppend(d: Row, d': Row, key: string, value: string, k: string)
    requires d' == d + [(key, value)]
    ensures Lookup(d', k) ==
      if Lookup(d, k).Some? then Lookup(d, k) else if k == key then Some(value) else None
  {
    FindAppend(d, key, value, k);
    if HasKey(d, k) {
      assert (d + [(key, value)])[Find(d, k).value] == d[Find(d, k).value];
    }
  }

  /** Every header of the first `n` is new: none occurs earlier in the
      row. */
  predicate FreshHeaders(row: Row, n: nat)
    requires n <= |row|
  {
    n == 0 || (!HasKey(row[..n - 1], row[n - 1].0) && FreshHeaders(row, n - 1))
  }

  lemma {:induction false} DistinctFreshHeaders(row: Row, n: nat)
    requires n <= |row| && Distinct(row)
    ensures FreshHeaders(row, n)
  {
    if n > 0 {
      DistinctFreshHeaders(row, n - 1);
      var prev := row[..n - 1];
      forall j | 0 <= j < n - 1 ensures prev[j].0 != row[n - 1].0 {
        assert prev[j] == row[j];
        assert KeyAt(row, j) != KeyAt(row, n - 1);
      }
    }
  }

  lemma BomVariant(key: string, k: string)
    ensures ([BOM] + k == key) <==> (StartsWith(key, BOM) && k == key[1..])
  {
    if StartsWith(key, BOM) && k == key[1..] {
      assert [BOM] + key[1..] == key;
    }
  }

  /** The case analysis of one normalisation step, on the lookups alone:
      `r`, `p` and `pb` answer for the name, the row prefix for the name and
      for its BOM-prefixed form before the step, the primed ones after it. */
  lemma NormalizeStep(
    isKey: bool, isStripped: bool, v: string,
    r: Option<string>, p: Option<string>, pb: Option<string>,
    r': Option<string>, p': Option<string>, pb': Option<string>)
    requires !(isKey && isStripped)
    requires isKey ==> p.None?
    requires isStripped ==> pb.None?
    requires r' == if isKey || isStripped then Some(v) else r
    requires p' == if p.Some? then p else if isKey then Some(v) else None
    requires pb' == if pb.Some? then pb else if isStripped then Some(v) else None
    requires (r.Some? <==> p.Some? || pb.Some?) && (r == p || r == pb)
    ensures (r'.Some? <==> p'.Some? || pb'.Some?) && (r' == p' || r' == pb')
  {
  }

  lemma PrefixGrows<T>(s: seq<T>, n: nat)
    requires 0 < n <= |s|
    ensures s[..n] == s[..n - 1] + [s[n - 1]]
  {
  }

  lemma {:induction false} NormalizePrefixSpec(row: Row, n: nat, k: string)
    requires n <= |row| && FreshHeaders(row, n)
    ensures var r := NormalizePrefix(row, n);
      && (Lookup(r, k).Some? <==> Lookup(row[..n], k).Some? || Lookup(row[..n], [BOM] + k).Some?)
      && (Lookup(r, k) == Lookup(row[..n], k) || Lookup(r, k) == Lookup(row[..n], [BOM] + k))
  {
    if n > 0 {
      NormalizePrefixSpec(row, n - 1, k);
      var key := row[n - 1].0;
      var value := row[n - 1].1;
      var prev := row[..n - 1];
      var whole := row[..n];
      PrefixGrows(row, n);
      var r := NormalizePrefix(row, n - 1);
      var r' := NormalizePrefix(row, n);
      assert r' == AddNormalized(r, key, value);
      AddNormalizedLookup(r, key, value, k);
      LookupAppend(prev, whole, key, value, k);
      LookupAppend(prev, whole, key, value, [BOM] + k);
      BomVariant(key, k);
      var isStripped := StartsWith(key, BOM) && k == key[1..];
      NormalizeStep(k == key, isStripped, value,
        Lookup(r, k), Lookup(prev, k), Lookup(prev, [BOM] + k),
        Lookup(r', k), Lookup(whole, k), Lookup(whole, [BOM] + k));
    }
  }

  /** Normalisation keeps every header and adds the BOM-less name of each
      BOM-prefixed one. A name's cell is the row's own cell for that name or
      for its BOM-prefixed form; when only one of the two headers exists, it
      is that header's cell. */
  lemma NormalizeRowSpec(row: Row, k: string)
    requires Distinct(row)
    ensures Distinct(NormalizeRow(row))
    ensures var r := NormalizeRow(row);
      && (HasKey(r, k) <==> HasKey(row, k) || HasKey(row, [BOM] + k))
      && (Lookup(r, k) == Lookup(row, k) || Lookup(r, k) == Lookup(row, [BOM] + k))
      && (!HasKey(row, [BOM] + k) ==> Lookup(r, k) == Lookup(row, k))
      && (!HasKey(row, k) ==> Lookup(r, k) == Lookup(row, [BOM] + k))
  {
    DistinctFreshHeaders(row, |row|);
    NormalizePrefixSpec(row, |row|, k);
    assert row[..|row|] == row;
  }
}

=== FILE: validation.dfy ===
/** The two schema checks: the importer's `validate_schema(config)`, run
    before an import, which only looks at the shape of the schema, and the
    standalone validator, which transforms the first row of a CSV file and
    looks for the key attributes in the resulting item. */
module Validation {
  import opened Base
  import opened Text
  import opened Dicts
  import opened Values
  import opened Transform
  import opened Batching

  /** Python's `key in container` for a string key: a member of an object, an
      element of an array, a substring of a string; anything else raises a
      `TypeError`. */
  function Contains(container: Json, key: string): (r: Result<bool>)
    ensures r.Err? <==> !(container.JObj? || container.JArr? || container.JStr?)
    ensures container.JObj? ==> r == Ok(HasKey(container.members, key))
    ensures container.JArr? ==> r == Ok(JStr(key) in container.elems)
  {
    match container
    case JObj(members) => Ok(HasKey(members, key))
    case JArr(elems) => Ok(JStr(key) in elems)
    case JStr(s) => Ok(IsInfix(key, s))
    case _ => Err(MembershipNotSupported)
  }

  /** Whether the importer warns that `key` is not among the mapping's
      entries: nothing is looked up for an empty key, and `schema.get` raises
      on a schema that is not an object. */
  function KeyWarning(schema: Json, key: string): (r: Result<bool>)
    ensures key == "" ==> r == Ok(false)
    ensures key != "" && !schema.JObj? ==> r == Err(MethodNotSupported)
  {
    if key == "" then Ok(false)
    else match schema
      case JObj(members) =>
        var present :- Contains(GetOr(members, "mapping", JObj([])), key);
        Ok(!present)
      case _ => Err(MethodNotSupported)
  }

  /** `validate_schema(config)` of the importer: `Ok(false)` when a truthy
      schema has no "mapping", `Ok(true)` otherwise, and an error when one of
      its membership tests or look-ups raises. Missing keys only warn. */
  function ValidateConfig(cfg: Config): (r: Result<bool>)
    ensures !Truthy(cfg.schema) ==> r == Ok(true)
  {
    if !Truthy(cfg.schema) then Ok(true)
    else
      var hasMapping :- Contains(cfg.schema, "mapping");
      if !hasMapping then Ok(false)
      else
        var _ :- KeyWarning(cfg.schema, cfg.hashKey);
        var _ :- KeyWarning(cfg.schema, cfg.rangeKey);
        Ok(true)
  }

  /** The verdict is `false` exactly for a truthy schema that does not hold
      "mapping", and otherwise `true` unless a test raised. */
  lemma ValidateConfigVerdict(cfg: Config)
    ensures ValidateConfig(cfg) == Ok(false) <==>
      Truthy(cfg.schema) && Contains(cfg.schema, "mapping") == Ok(false)
    ensures ValidateConfig(cfg).Ok? && ValidateConfig(cfg).value <==>
      !Truthy(cfg.schema) || (Contains(cfg.schema, "mapping") == Ok(true)
        && KeyWarning(cfg.schema, cfg.hashKey).Ok? && KeyWarning(cfg.schema, cfg.rangeKey).Ok?)
  {
  }

  /** The hash and range keys never change a verdict: with or without them
      the result is the same whenever it is not an error. */
  lemma KeysOnlyWarn(cfg: Config)
    requires ValidateConfig(cfg).Ok?
    ensures ValidateConfig(cfg) == ValidateConfig(cfg.(hashKey := "", rangeKey := ""))
  {
  }

  /** For an object schema whose mapping is an object, array or string the
      check never raises, and passes exactly when "mapping" is a member,
      whatever the keys are and whether or not the mapping mentions them. */
  lemma ObjectSchemaVerdict(cfg: Config, members: Dict<Json>)
    requires cfg.schema == JObj(members) && members != []
    requires HasKey(members, "mapping") ==>
      var m := GetOr(members, "mapping", JObj([])); m.JObj? || m.JArr? || m.JStr?
    ensures ValidateConfig(cfg) == Ok(HasKey(members, "mapping"))
  {
  }

  /** The check lets through a schema whose "mapping" is present but falsy;
      `transform_row` then ignores it and uses the default layout. */
  lemma FalsyMappingPassesToDefaultLayout(cfg: Config, row: Row, p: Parsers)
    requires cfg.schema == JObj([("mapping", JObj([]))])
    ensures ValidateConfig(cfg) == Ok(true)
    ensures TransformRow(row, cfg, p) == Ok(DefaultLayout(row, cfg))
  {
    assert Lookup(cfg.schema.members, "mapping") == Some(JObj([]));
  }

  /** A key of the standalone validator's configuration, read with
      `schema.get(name)`: absent or falsy is no key; `None` stands for a
      truthy value that is not a string. */
  function SchemaKey(members: Dict<Json>, name: string): (r: Option<string>)
    ensures r == Some("") <==> Lookup(members, name).None? || !Truthy(Lookup(members, name).value)
    ensures r.Some? && r.value != "" ==> Lookup(members, name) == Some(JStr(r.value))
  {
    match Lookup(members, name)
    case None => Some("")
    case Some(j) =>
      if !Truthy(j) then Some("")
      else if j.JStr? then Some(j.s)
      else None
  }

  /** The configuration the standalone validator builds from an object
      schema with string keys. */
  function SampleConfig(members: Dict<Json>, hashKey: string, rangeKey: string): Config {
    Config(JObj(members), hashKey, rangeKey, 25)
  }

  /** `validate_schema(csv_file, schema_file)` of the standalone validator.
      `schema` is the parsed schema file (`None` when it cannot be read or is
      not JSON) and `raw` the rows of the CSV reader (`None` when reading
      raises); every exception makes the validation fail. It passes when the
      first row transforms to a non-empty item holding every key the schema
      names. */
  function ValidateSample(schema: Option<Json>, raw: Option<seq<Row>>, p: Parsers): (ok: bool)
    ensures schema.None? || !schema.value.JObj? ==> !ok
    ensures raw.None? || raw.value == [] ==> !ok
  {
    match schema
    case Some(JObj(members)) =>
      (match (SchemaKey(members, "hash_key"), SchemaKey(members, "range_key"), raw)
       case (Some(hk), Some(rk), Some(rows)) =>
         if |rows| == 0 then false
         else
           var sample := TransformRow(ReadRows(rows)[0], SampleConfig(members, hk, rk), p);
           && sample.Ok?
           && sample.value != map[]
           && (hk == "" || hk in sample.value)
           && (rk == "" || rk in sample.value)
       case _ => false)
    case _ => false
  }

  /** The converse: an object schema with string keys passes every
      non-empty file whose first row transforms to a non-empty item holding
      the keys it names. */
  lemma FirstItemWithKeysPasses(members: Dict<Json>, rows: seq<Row>, p: Parsers)
    requires |rows| > 0
    requires SchemaKey(members, "hash_key").Some? && SchemaKey(members, "range_key").Some?
    requires var hk := SchemaKey(members, "hash_key").value;
      var rk := SchemaKey(members, "range_key").value;
      var sample := TransformRow(NormalizeRow(rows[0]), SampleConfig(members, hk, rk), p);
      && sample.Ok? && sample.value != map[]
      && (hk != "" ==> hk in sample.value)
      && (rk != "" ==> rk in sample.value)
    ensures ValidateSample(Some(JObj(members)), Some(rows), p)
  {
    assert ReadRows(rows)[0] == NormalizeRow(rows[0]);
  }

  /** Only the first row of the file is looked at. */
  lemma OnlyFirstRowMatters(schema: Option<Json>, rows: seq<Row>, others: seq<Row>, p: Parsers)
    requires |rows| > 0 && |others| > 0 && rows[0] == others[0]
    ensures ValidateSample(schema, Some(rows), p) == ValidateSample(schema, Some(others), p)
  {
    assert ReadRows(rows)[0] == ReadRows(others)[0];
  }

  /** A passing validation promises what an import with the same schema and
      keys does with the file: its first batch starts with the first row's
      item, which holds the hash and range keys. */
  lemma PassingSampleLeadsFirstBatch(members: Dict<Json>, rows: seq<Row>, p: Parsers, batchSize: int)
    requires ValidateSample(Some(JObj(members)), Some(rows), p)
    ensures SchemaKey(members, "hash_key").Some? && SchemaKey(members, "range_key").Some?
    ensures var hk := SchemaKey(members, "hash_key").value;
      var rk := SchemaKey(members, "range_key").value;
      var bs := Batches(Transformed(ReadRows(rows), SampleConfig(members, hk, rk).(batchSize := batchSize), p), batchSize);
      && |bs| > 0 && |bs[0]| > 0
      && bs[0][0] == TransformRow(ReadRows(rows)[0], SampleConfig(members, hk, rk), p).value
      && (hk != "" ==> hk in bs[0][0])
      && (rk != "" ==> rk in bs[0][0])
  {
    var hk := SchemaKey(members, "hash_key").value;
    var rk := SchemaKey(members, "range_key").value;
    var cfg := SampleConfig(members, hk, rk).(batchSize := batchSize);
    var rs := Transformed(ReadRows(rows), cfg, p);
    assert rs[0] == TransformRow(ReadRows(rows)[0], SampleConfig(members, hk, rk), p);
    KeptFirst(rs);
    ChunksFirst(Kept(rs), EffectiveSize(batchSize));
  }

  /** A schema object without a truthy "mapping" validates every non-empty
      file whose keys are strings: the default layout always holds the hash
      and range attributes. */
  lemma NoMappingPassesEveryFile(members: Dict<Json>, rows: seq<Row>, p: Parsers)
    requires |rows| > 0
    requires Lookup(members, "mapping").None? || !Truthy(Lookup(members, "mapping").value)
    requires SchemaKey(members, "hash_key").Some? && SchemaKey(members, "range_key").Some?
    ensures ValidateSample(Some(JObj(members)), Some(rows), p)
  {
    var hk := SchemaKey(members, "hash_key").value;
    var rk := SchemaKey(members, "range_key").value;
    assert MappingOf(JObj(members)) == Ok(None);
  }
}

=== FILE: values.dfy ===
/** The values that flow through the importer: exact decimals, JSON
    documents (the schema file and `M` fields), the typed attribute values of a
    DynamoDB item, and the library parsers the coercion delegates to. */
module Values {
  import opened Base
  import opened Dicts

  /** Python's `decimal.Decimal`: a signed coefficient and a power-of-ten
      exponent, or one of the special values. Equal numbers written
      differently (`1.0`, `1.00`) are distinct values here. */
  datatype Decimal =
    | Finite(negative: bool, coefficient: nat, exponent: int)
    | Infinity(negative: bool)
    | NaN(signaling: bool)

  /** A parsed JSON document; objects keep their members in document order. */
  datatype Json =
    | JNull
    | JBool(b: bool)
    | JNum(n: Decimal)
    | JStr(s: string)
    | JArr(elems: seq<Json>)
    | JObj(members: Dict<Json>)

  /** Python truthiness of a JSON value: `None`, `False`, zero and empty
      strings, lists and dicts are false. */
  predicate Truthy(j: Json) {
    match j
    case JNull => false
    case JBool(b) => b
    case JNum(n) => !(n.Finite? && n.coefficient == 0)
    case JStr(s) => s != ""
    case JArr(elems) => elems != []
    case JObj(members) => members != []
  }

  /** One attribute value of an item. `VList` keeps the converted pieces,
      including those that converted to `None`. */
  datatype Value =
    | VStr(s: string)
    | VNum(d: Decimal)
    | VBool(b: bool)
    | VBin(bytes: seq<byte>)
    | VList(elems: seq<Option<Value>>)
    | VJson(j: Json)
    | VStrSet(strs: set<string>)
    | VNumSet(nums: set<Decimal>)
    | VMap(fields: map<string, Value>)

  /** A DynamoDB item: attribute name to value. Its truthiness is
      non-emptiness. */
  type Item = map<string, Value>

  /** The library parsers the coercion calls, as total functions that answer
      `None` where the library raises: `Decimal(text)`, `base64.b64decode`
      (section 4 of RFC 4648) and `json.loads` (RFC 8259). */
  datatype Parsers = Parsers(
    decimal: string -> Option<Decimal>,
    base64: string -> Option<seq<byte>>,
    json: string -> Option<Json>)
}
